=== FILE: README.md ===
# Coffee-sales feature pipeline, modelled in Dafny

The model covers the data path of a coffee-shop sales predictor. An
uploaded transaction table (one row per sale, with `Date`, `money` and
`coffee_name` columns, and optional `Weekdaysort` / `Monthsort`) goes
through three steps:

1. it is **cleaned** (`clean_raw_data`);
2. it is **aggregated** into one row per day and menu item (`build_daily_from_raw`);
3. it is **extended** with the features the model was trained on (`add_features`).

The model's input is then the `FEATURE_COLS` columns of the result.

The Dafny modules follow those steps:

- `Wrappers`: `Option` and `Result`.
- `Strings`:
  - Python's `str.strip`, over the characters `str.isspace` accepts;
  - comma removal;
  - the decimal rendering `astype(str)` gives an integer cell;
  - code-point string order.
- `Calendar`: weekday and month of a day number. Day 0 is 1970-01-01.
- `Frames`: cells, the raw table, and label lookup after trimming.
- `Cleaning`: `clean_raw_data`, with its error paths in the code's order.
- `Daily`: the group-by, with a reference count and sum per key.
- `Features`:
  - the `(Menu_Name, Date)` sort;
  - the per-item shifts, with two reference definitions;
  - `day_number` and `is_weekend`;
  - `FEATURE_COLS` and column selection.
- `Pipeline`: the three steps composed, and end-to-end properties.

How the model treats the parts the code leaves to pandas:

- **Parsers.** `pd.to_datetime(..., errors="coerce")` and `float(...)` are
  parameters (`Cleaning.Parsers`). They are partial functions from a cell
  or a text to a day or a number. Everything the code does around them is
  modelled: the comma removal, the trimming, which rows are dropped, and
  which text makes the conversion fail.
- **Money.** It is a `real`.
- **Shifts.** `sale_yesterday` and `sale_last_week` are
  `groupby("Menu_Name").shift(1 | 7)` with NaN filled by 0. They are
  defined by a backward scan for the item's earlier rows (`Features.PrevSame`).
  Two lemmas prove this scan equal to two reference definitions:
  - the item's history in table order (`Features.LagIsHistory`);
  - on the sorted table, the row one or seven places up when it is of the
    same item (`Features.PrevSameSorted`).

Where the code's names and comments suggest more than the code does, the
model follows the code:

- **The shifts count rows, not calendar days.** The column names
  `sale_yesterday` and `sale_last_week`, and the comment "7 days before" on
  `sale_last_week` (pipeline_utils.py:110), suggest calendar offsets. The
  code takes the item's previous row, and the row seven rows earlier,
  whatever dates they carry (`Features.ShiftCountsRows`).
- **`day_number` counts from the earliest date of the whole table**, not of
  each item. It is 0 exactly on rows at the table's earliest date. An
  item's first row gets 0 only if the item sold on that date
  (`Features.DayNumberIsGlobal`).

## Model

| member | source | states |
|---|---|---|
| `Strings.Strip` | pipeline_utils.py:29 | the result is the input with a run of leading and a run of trailing whitespace removed, and it neither starts nor ends with whitespace |
| `Strings.StripUnique` | pipeline_utils.py:52 | any split into leading whitespace, a core that neither starts nor ends with whitespace, and trailing whitespace gives that core as the strip |
| `Strings.StripTrimmed` | pipeline_utils.py:44 | a text without whitespace at either end is its own strip |
| `Strings.StripIdempotent` | pipeline_utils.py:44 | stripping twice is stripping once |
| `Strings.RemoveCommas` | pipeline_utils.py:43 | the result has no comma and the same multiset of other characters; a text without commas is unchanged |
| `Strings.RemoveCommasThousands` | pipeline_utils.py:43 | "1,000" becomes "1000" |
| `Strings.RemoveCommasAppend` | pipeline_utils.py:43 | comma removal distributes over concatenation |
| `Strings.ReadShowNat` | pipeline_utils.py:42 | the decimal rendering of a natural number reads back as that number |
| `Strings.Show` | pipeline_utils.py:42 | an integer's rendering is its digits, without leading zeros, preceded by '-' exactly when it is negative, and it reads back to the integer |
| `Strings.StrLeTotal` | pipeline_utils.py:101 | any two names are ordered one way or the other |
| `Strings.StrLeAntisymmetric` | pipeline_utils.py:101 | names ordered both ways are equal |
| `Strings.StrLeTransitive` | pipeline_utils.py:101 | the name order is transitive |
| `Calendar.Weekday` | pipeline_utils.py:58 | the weekday is in 0..6 |
| `Calendar.WeekdayNext` | pipeline_utils.py:58 | the next day has the next weekday, and the day a week later has the same one |
| `Calendar.Month` | pipeline_utils.py:60 | the month is in 1..12 |
| `Calendar.MonthLengths` | pipeline_utils.py:60 | the March-based day of year maps to months 3..12 then 1..2 at the Gregorian month boundaries (31, 30, 31, 30, 31, 31, 30, 31, 30, 31, 31 days) |
| `Calendar.KnownDates` | pipeline_utils.py:58-60 | 1970-01-01 is a Thursday in January; 2023-12-31 is a Sunday in December; 2024-01-01 is a Monday in January; 2024-02-29 and 2024-03-01 fall in February and March |
| `Frames.TrimLabels` | pipeline_utils.py:29 | every column label is stripped, position by position |
| `Frames.Lookup` | pipeline_utils.py:32 | finds the first column whose stripped label is the name; a position is found exactly when some stripped label equals the name |
| `Cleaning.KeepDated` | pipeline_utils.py:33-34 | every kept row is an input row, carrying the date its Date cell parses to, and every input row whose Date cell parses is kept with that date |
| `Cleaning.KeepDatedCount` | pipeline_utils.py:33-34 | the filter keeps exactly as many rows as there are rows whose Date cell parses (an independent count) |
| `Cleaning.KeepDatedOne` | pipeline_utils.py:33-34 | a single row is kept with its parsed date exactly when its Date cell parses, and dropped otherwise |
| `Cleaning.KeepDatedAppend` | pipeline_utils.py:34 | the date filter works row by row: filtering a concatenation concatenates the filtered parts, so with `KeepDatedOne` the filter keeps the parsable rows in their order, each once |
| `Cleaning.KeepDatedDrop` | pipeline_utils.py:33-34 | removing a row whose Date cell does not parse leaves the filter's output unchanged |
| `Cleaning.MoneyText` | pipeline_utils.py:41-44 | the converted money text is the cell's `astype(str)` text with every comma removed and then a whitespace run cut from each end, leaving no whitespace at either end; it has no comma; a text already without commas and outer whitespace is unchanged |
| `Cleaning.MoneyTextThousands` | pipeline_utils.py:41-44 | the money cell "1,000" converts as the text "1000" |
| `Cleaning.MoneyTextBlanks` | pipeline_utils.py:41-44 | the money cell " 250 " converts as the text "250" |
| `Frames.CellText` | pipeline_utils.py:42 | `astype(str)` of a cell; no contract of its own, `Strings.Show` states the integer case |
| `Cleaning.ParseMoney` | pipeline_utils.py:40-46 | succeeds exactly when every money text converts; the values are the conversions in order; on failure the error names the first text that does not convert |
| `Cleaning.SchemaOf` | pipeline_utils.py:32-59 | each of Date, money, coffee_name, Weekdaysort and Monthsort is located exactly when some stripped label equals it (the `in df.columns` tests), at a position inside the table |
| `Cleaning.CleanRowOf` | pipeline_utils.py:52-60 | one surviving row's cleaned form; no contract of its own, `Cleaning.CleanRowOfIsCleaned` states it |
| `Cleaning.CleanRowOfIsCleaned` | pipeline_utils.py:52-60 | a surviving row's cleaned form has its parsed date and money, its stripped coffee_name, and given ranks kept or derived from the date (weekday + 1 in 1..7, month in 1..12) |
| `Cleaning.CleanRows` | pipeline_utils.py:50-60 | every surviving row becomes one cleaned row, in order, related to it as above |
| `Cleaning.CleanDated` | pipeline_utils.py:38-62 | no money column fails with it missing; a money text that does not convert fails exactly when some row's money does not parse; a money failure names the converted text of the first surviving row whose money does not convert; after that a missing coffee_name column fails; with all three columns and every row's money converting it succeeds; success keeps one cleaned row per surviving row |
| `Cleaning.MoneyErrorNamesFirst` | pipeline_utils.py:45 | a failed money conversion names the converted text of the first surviving row whose money does not convert |
| `Cleaning.Clean` | pipeline_utils.py:16-62 | no Date column fails first; otherwise cleaning is the post-filter stage on the rows whose date parses; success has all three required columns and one row per dated row; a table with the three columns whose dated rows' money all converts is cleaned successfully |
| `Cleaning.MissingDateReportedFirst` | pipeline_utils.py:32-36 | without a column labelled Date after trimming, the error is the missing Date column whatever else is wrong |
| `Cleaning.CleanIgnoresUndatedRow` | pipeline_utils.py:33-34 | removing a row whose date does not parse changes nothing in the result, not even which error is raised |
| `Cleaning.CleanRejectsBadMoney` | pipeline_utils.py:40-46 | one dated row whose money does not convert makes cleaning fail with a money error |
| `Daily.Aggregate` | pipeline_utils.py:70-86 | `build_daily_from_raw` itself; no contract of its own, `Daily.AggregateCorrect` and `Daily.AggregateConserves` state what it computes |
| `Daily.AggregateCorrect` | pipeline_utils.py:70-78 | the daily table has one row per distinct (Date, Weekdaysort, Monthsort, coffee_name) key of the cleaned rows, and no other rows; each row's Amount_of_Sale is the key's row count and its Total_Revenue the key's money sum |
| `Daily.AddRowAggregates` | pipeline_utils.py:72-76 | adding one cleaned row to a correct aggregation of some rows gives a correct aggregation of those rows plus it |
| `Daily.AggregateConserves` | pipeline_utils.py:73-76 | Amount_of_Sale sums to the number of cleaned rows and Total_Revenue to their money |
| `Daily.AddRowTotals` | pipeline_utils.py:74-75 | one more cleaned row adds 1 to the total count and its money to the total revenue |
| `Daily.UniqueDateMenuFromKeys` | pipeline_utils.py:72 | when the ranks of every row follow its date, unique group keys mean unique (Date, Menu_Name) pairs |
| `Daily.AggregateUniqueDateMenu` | pipeline_utils.py:72 | when the ranks follow the date, the daily table has one row per date and item |
| `Daily.AggregateSplitsOnRanks` | pipeline_utils.py:72 | two same-day sales of one item whose given Weekdaysort differ produce two daily rows for that date and item |
| `Features.RowLeTotal` | pipeline_utils.py:101 | any two rows are ordered one way or the other by (Menu_Name, Date) |
| `Features.RowLeTransitive` | pipeline_utils.py:101 | the (Menu_Name, Date) order is transitive |
| `Features.Insert` | pipeline_utils.py:101 | inserting a row into a sorted table keeps it sorted and adds exactly that row |
| `Features.SortRows` | pipeline_utils.py:101 | the sorted table is a permutation of the input, ordered by Menu_Name and then Date |
| `Features.SortedContiguous` | pipeline_utils.py:101 | in the sorted table an item's rows are adjacent |
| `Features.PrevSameIsHistory` | pipeline_utils.py:108-111 | the backward scan finds the k-th previous row of the item exactly when the item has k rows above, and it is the k-th last of them |
| `Features.Lag` | pipeline_utils.py:108-114 | the per-item shift with NaN filled by 0; no contract of its own, `Features.LagIsHistory` and `Features.LagSorted` state it |
| `Features.LagIsHistory` | pipeline_utils.py:108-114 | the shifted amount at a row is the item's k-th last amount among the rows above, or 0 when there are fewer than k |
| `Features.PrevSameSorted` | pipeline_utils.py:101-111 | on the sorted table the item's k-th previous row is the row k places up when that row is of the same item, and there is none otherwise |
| `Features.PositionalIsHistory` | pipeline_utils.py:101-111 | on the sorted table the positional shift equals the history shift |
| `Features.LagSorted` | pipeline_utils.py:101-114 | on the sorted table the per-item shift is the positional one at every row |
| `Features.MinDate` | pipeline_utils.py:104 | the first day is no later than any row's date and is some row's date |
| `Features.AddFeatures` | pipeline_utils.py:89-119 | the feature table is a permutation of the daily rows, sorted by (Menu_Name, Date), with each row's derived columns given by FeatureAt against the earliest daily date |
| `Features.FeatureAt` | pipeline_utils.py:104-117 | on a sorted table: day_number is the date minus the first day; the two shifts are the amounts one and seven rows up when those rows are of the same item, else 0; is_weekend is 1 exactly for Weeksort 6 or 7 |
| `Features.ShiftsArePositional` | pipeline_utils.py:108-114 | in the feature table sale_yesterday and sale_last_week are the Amount_of_Sale one and seven rows up when that row is of the same item, else 0 |
| `Features.ShiftsFollowHistory` | pipeline_utils.py:108-114 | in the feature table sale_yesterday and sale_last_week are the item's last and seventh-to-last Amount_of_Sale among the rows above, or 0 |
| `Features.WeekendRank` | pipeline_utils.py:117 | `isin([6, 7])` on Weeksort; no contract of its own, `Features.WeekendFlag` states it |
| `Features.WeekendFlag` | pipeline_utils.py:117 | is_weekend is 1 exactly when Weeksort is 6 or 7, and 0 otherwise |
| `Features.DayNumberFromEarliest` | pipeline_utils.py:104-105 | day_number is never negative, is 0 exactly on rows at the earliest date of the table, and keeps the distance between any two dates |
| `Features.DayNumberIsGlobal` | pipeline_utils.py:104-105 | an item whose only row is three days after the table's earliest date gets day_number 3 there |
| `Features.ShiftCountsRows` | pipeline_utils.py:108-114 | an item's sale five days after its previous one still gets that previous sale as sale_yesterday |
| `Features.Select` | app.py:58 | selection succeeds exactly when every requested column exists, and then yields those columns' values in the requested order |
| `Features.FeatureColsSelectable` | pipeline_utils.py:5-14 | every FEATURE_COLS name is a column of the feature table, there are eight of them, and Amount_of_Sale is not among them |
| `Pipeline.Run` | app.py:48-55 | the run fails exactly when cleaning fails, with cleaning's error, and succeeds on every table the cleaner accepts; a successful run is `add_features` of the daily table: a reordering of it, sorted by (Menu_Name, Date) |
| `Pipeline.FeatureMatrix` | app.py:58 | the model input has one row per feature row, each the FEATURE_COLS values in order |
| `Pipeline.TotalsPermutation` | pipeline_utils.py:101 | reordering a daily table keeps its total Amount_of_Sale and Total_Revenue |
| `Pipeline.UniquePermutation` | pipeline_utils.py:101 | reordering keeps a table with one row per date and item that way |
| `Pipeline.RunConserves` | app.py:48-55 | Amount_of_Sale over the feature table sums to the number of rows with a parsable date, and Total_Revenue to their money |
| `Pipeline.DerivedRanks` | pipeline_utils.py:57-60 | without Weekdaysort and Monthsort columns every cleaned row's ranks are its date's weekday + 1 and month |
| `Pipeline.GroupRanks` | pipeline_utils.py:72 | daily rows keep the date-derived ranks of the cleaned rows they group |
| `Pipeline.RunDerivedRanks` | pipeline_utils.py:57-60 | without Weekdaysort and Monthsort the feature table has one row per date and item, and each row's Weeksort and Monthsort are its date's weekday + 1 and month |
| `Pipeline.RunWeekend` | pipeline_utils.py:117 | without Weekdaysort and Monthsort, is_weekend is 1 exactly on Saturdays and Sundays |

## Left out

- The HTTP endpoint, CSV reading, model loading and the prediction call (app.py) are I/O and an opaque model. Only the composition of the three steps and the column selection are modelled.
- `pd.to_datetime`'s column-wide format inference and `float()`'s syntax are abstract parsers. Time of day is dropped: dates are whole days.
- Float arithmetic: money is an exact `real`, so the revenue sums are exact.
- Shift column types: sale_yesterday and sale_last_week are natural numbers (`Features.FeatureRow`), and the feature matrix hands them to the predictor as integers. In the code they are float64, because `shift` introduces NaN and `fillna(0)` keeps the float type; the values are the same whole numbers.
- Missing values: NaN cells and labels are not modelled. A NaN coffee_name would become the text "nan" under `astype(str)`; NaN keys are dropped by `groupby`.
- Cells holding floats: a cell is text or an integer. `astype(str)` is modelled for those two only.
- Duplicate column labels after trimming: the first matching column is read. pandas would hand back a frame and fail differently.
- Pass-through columns such as `Time` are not carried: cleaned rows keep only the columns the later steps read.
- `Daily.AggregateCorrect`: the groups come out in first-appearance order, where `groupby` sorts its keys. `add_features` re-sorts by (Menu_Name, Date), so this matters only for rows that tie on that pair, which happens when given Weekdaysort or Monthsort values split one date and item. For such ties the model's row order, and with it their sale_yesterday and sale_last_week, follow first appearance in the upload; the code gives sorted-key order.
- `Features.SortRows`: rows with equal (Menu_Name, Date) keep their input order. pandas' default sort does not promise that. Such ties occur only when given ranks split a date (see `Daily.AggregateSplitsOnRanks`). Their order, and so their sale_yesterday and sale_last_week, then follow first appearance in the upload, not the sorted-key order the code's `groupby` gives.
- `Calendar.Month`: it is proved in range, with month boundaries and proved for fixed dates (`Calendar.KnownDates`), but not proved equal to a full civil-calendar conversion.
- The output column list `["Date", "Menu_Name", "Amount_of_Sale", "Predicted_Amount_of_Sale"]` needs the prediction, so it is left out with the model.

=== FILE: calendar.dfy ===
/** Calendar arithmetic on dates represented as day numbers. The pipeline
    keeps only the date part of a timestamp, so a date is the number of days
    since 1970-01-01 in the proleptic Gregorian calendar. */
module Calendar {

  /** Days since 1970-01-01 (negative before it). */
  type Day = int

  /** The weekday with Monday = 0 through Sunday = 6, as pandas'
      `.dt.weekday` numbers it; 1970-01-01 was a Thursday. */
  function Weekday(d: Day): (w: int)
    ensures 0 <= w < 7
  {
    (d + 3) % 7
  }

  /** Weekdays advance by one per day and wrap after Sunday. */
  lemma WeekdayNext(d: Day)
    ensures Weekday(d + 1) == (Weekday(d) + 1) % 7
    ensures Weekday(d + 7) == Weekday(d)
  {
  }

  /** Days since the start of the 400-year era (eras begin on March 1st of
      years divisible by 400) that contains day `d`. */
  function DayOfEra(d: Day): (doe: int)
    ensures 0 <= doe < 146097
  {
    (d + 719468) % 146097
  }

  /** Position of a day within its March-based year: 0 is March 1st and
      365 is February 29th of a leap year. An era splits into four
      centuries of 36524 days, the last one a day longer; the first three
      centuries split into four-year cycles of 1461 days, the last one a day
      shorter, and the fourth into 25 full cycles; a cycle splits into years
      of 365 days, the last one a day longer when the cycle is full. */
  function DayOfMarchYear(d: Day): (doy: int)
    ensures 0 <= doy <= 365
  {
    var doe := DayOfEra(d);
    var c := if doe / 36524 == 4 then 3 else doe / 36524;
    var doc := doe - 36524 * c;
    var q := doc / 1461;
    var doq := doc - 1461 * q;
    var y := if doq / 365 == 4 then 3 else doq / 365;
    doq - 365 * y
  }

  /** Month (1..12) of a March-based day of year: March through December
      are months 3..12, January and February close the March-based year. */
  function MonthOfMarchDay(doy: int): (m: int)
    requires 0 <= doy <= 365
    ensures 1 <= m <= 12
  {
    var mp := (5 * doy + 2) / 153;
    if mp < 10 then mp + 3 else mp - 9
  }

  /** The calendar month of a date, as pandas' `.dt.month` numbers it. */
  function Month(d: Day): (m: int)
    ensures 1 <= m <= 12
  {
    MonthOfMarchDay(DayOfMarchYear(d))
  }

  /** The month formula assigns each March-based day to the month whose
      days it counts: 31 days of March, 30 of April, and so on, with
      February taking the remaining 28 or 29. */
  lemma MonthLengths(doy: int)
    requires 0 <= doy <= 365
    ensures MonthOfMarchDay(doy) == (
      if doy < 31 then 3 else if doy < 61 then 4 else if doy < 92 then 5
      else if doy < 122 then 6 else if doy < 153 then 7 else if doy < 184 then 8
      else if doy < 214 then 9 else if doy < 245 then 10 else if doy < 275 then 11
      else if doy < 306 then 12 else if doy < 337 then 1 else 2)
  {
  }

  /** Fixed dates: 1970-01-01 (Thursday), 2023-12-31 (Sunday),
      2024-01-01 (Monday), 2024-02-29 and 2024-03-01. */
  lemma KnownDates()
    ensures Weekday(0) == 3 && Month(0) == 1
    ensures Weekday(19722) == 6 && Month(19722) == 12
    ensures Weekday(19723) == 0 && Month(19723) == 1
    ensures Month(19782) == 2 && Month(19783) == 3
  {
    assert DayOfEra(0) == 135080 && DayOfMarchYear(0) == 306;
    assert DayOfEra(19722) == 8705 && DayOfMarchYear(19722) == 305;
    assert DayOfEra(19723) == 8706 && DayOfMarchYear(19723) == 306;
    assert DayOfEra(19782) == 8765 && DayOfMarchYear(19782) == 365;
    assert DayOfEra(19783) == 8766 && DayOfMarchYear(19783) == 0;
  }
}

=== FILE: cleaning.dfy ===
/** The raw cleaner (`clean_raw_data`): checks that the required columns
    exist, drops rows whose date does not parse, converts money to a number
    (fatally), trims item names and derives the weekday and month ranks when
    the input does not carry them. */
module Cleaning {
  import opened Wrappers
  import opened Strings
  import opened Calendar
  import opened Frames

  /** The library parsers the cleaner relies on, as partial functions:
      `date` is `pd.to_datetime(..., errors="coerce")` on one cell (None
      for NaT), `number` is `float()` on one string (None where it
      raises). */
  datatype Parsers = Parsers(date: Cell -> Option<Day>, number: string -> Option<real>)

  /** A cleaned transaction: parsed date, numeric money, trimmed item name,
      and the weekday and month ranks (given or derived). */
  datatype CleanRow = CleanRow(date: Day, money: real, name: string, weekday: Cell, month: Cell)

  /** The two failures the cleaner raises (both `ValueError` in the code). */
  datatype CleanError = MissingColumn(column: string) | BadMoney(text: string)

  /** A raw row that survived the date filter, with its parsed date. */
  datatype Dated = Dated(date: Day, cells: seq<Cell>)

  /** Reference count: how many of `rows` have a date cell that parses. */
  function CountDated(p: Parsers, rows: seq<seq<Cell>>, di: nat): (n: nat)
    requires forall k :: 0 <= k < |rows| ==> di < |rows[k]|
    ensures n <= |rows|
  {
    if rows == [] then 0
    else (if p.date(rows[0][di]).Some? then 1 else 0) + CountDated(p, rows[1..], di)
  }

  /** `dropna(subset=["Date"])` after coercing dates: the rows whose date
      cell parses, in their original order, each with its date. */
  function KeepDated(p: Parsers, rows: seq<seq<Cell>>, width: nat, di: nat): (r: seq<Dated>)
    requires di < width
    requires forall k :: 0 <= k < |rows| ==> |rows[k]| == width
    ensures |r| <= |rows|
    ensures forall k :: 0 <= k < |r| ==>
      r[k].cells in rows && |r[k].cells| == width && p.date(r[k].cells[di]) == Some(r[k].date)
    ensures forall j :: 0 <= j < |rows| && p.date(rows[j][di]).Some? ==>
      Dated(p.date(rows[j][di]).value, rows[j]) in r
  {
    if rows == [] then []
    else
      var rest := KeepDated(p, rows[1..], width, di);
      match p.date(rows[0][di])
      case None => rest
      case Some(d) => [Dated(d, rows[0])] + rest
  }

  /** The filter keeps exactly as many rows as have a parsable date. */
  lemma {:induction false} KeepDatedCount(p: Parsers, rows: seq<seq<Cell>>, width: nat, di: nat)
    requires di < width
    requires forall k :: 0 <= k < |rows| ==> |rows[k]| == width
    ensures |KeepDated(p, rows, width, di)| == CountDated(p, rows, di)
  {
    if rows != [] {
      KeepDatedCount(p, rows[1..], width, di);
    }
  }

  /** One row is kept, with its date, exactly when its date parses; with
      KeepDatedAppend this fixes the filter on every table. */
  lemma KeepDatedOne(p: Parsers, row: seq<Cell>, width: nat, di: nat)
    requires di < width && |row| == width
    ensures p.date(row[di]).Some? ==> KeepDated(p, [row], width, di) == [Dated(p.date(row[di]).value, row)]
    ensures p.date(row[di]).None? ==> KeepDated(p, [row], width, di) == []
  {
    assert [row][1..] == [];
  }

  /** Filtering works row by row, so it keeps the rows' order. */
  lemma {:induction false} KeepDatedAppend(p: Parsers, a: seq<seq<Cell>>, b: seq<seq<Cell>>, width: nat, di: nat)
    requires di < width
    requires forall k :: 0 <= k < |a| ==> |a[k]| == width
    requires forall k :: 0 <= k < |b| ==> |b[k]| == width
    ensures KeepDated(p, a + b, width, di) == KeepDated(p, a, width, di) + KeepDated(p, b, width, di)
  {
    if a != [] {
      assert (a + b)[0] == a[0];
      assert (a + b)[1..] == a[1..] + b;
      KeepDatedAppend(p, a[1..], b, width, di);
    } else {
      assert a + b == b;
    }
  }

  /** The money text as converted before parsing: `astype(str)`, all
      commas removed, then whitespace stripped. */
  function MoneyText(c: Cell): (r: string)
    ensures ',' !in r
    ensures r == [] || (!IsSpace(r[0]) && !IsSpace(r[|r| - 1]))
    ensures IsStripOf(r, RemoveCommas(CellText(c)))
    ensures var t := CellText(c); ',' !in t && (t == [] || (!IsSpace(t[0]) && !IsSpace(t[|t| - 1]))) ==> r == t
  {
    StripTrimmed(CellText(c));
    Strip(RemoveCommas(CellText(c)))
  }

  /** Thousands separators go: "1,000" converts as "1000". */
  lemma MoneyTextThousands()
    ensures MoneyText(Text("1,000")) == "1000"
  {
    assert CellText(Text("1,000")) == "1,000";
    RemoveCommasThousands();
    StripThousand();
  }

  lemma StripThousand()
    ensures Strip("1000") == "1000"
  {
    StripTrimmed("1000");
  }

  /** Surrounding blanks go: " 250 " converts as "250". */
  lemma MoneyTextBlanks()
    ensures MoneyText(Text(" 250 ")) == "250"
  {
    assert CellText(Text(" 250 ")) == " 250 ";
    assert ',' !in " 250 ";
    StripBlanks();
  }

  lemma StripBlanks()
    ensures Strip(" 250 ") == "250"
  {
    var s := " 250 ";
    assert |s| == 5 && s[1] == '2' && s[2] == '5' && s[3] == '0';
    assert s[1..4] == "250";
    StripUnique(s, 1, 4);
  }

  /** The parsed money of a cell, if its converted text parses. */
  function MoneyValue(p: Parsers, c: Cell): Option<real> {
    p.number(MoneyText(c))
  }

  /** `astype(float)` on the converted money texts: every text must
      parse, and the error names the first one that does not. */
  function ParseMoney(number: string -> Option<real>, texts: seq<string>): (r: Result<seq<real>, CleanError>)
    ensures r.Success? <==> forall k :: 0 <= k < |texts| ==> number(texts[k]).Some?
    ensures r.Success? ==>
      && |r.value| == |texts|
      && forall k :: 0 <= k < |texts| ==> number(texts[k]) == Some(r.value[k])
    ensures r.Failure? ==>
      exists k :: 0 <= k < |texts| && number(texts[k]).None? && r.error == BadMoney(texts[k]) &&
        forall j :: 0 <= j < k ==> number(texts[j]).Some?
  {
    if texts == [] then Success([])
    else
      match number(texts[0])
      case None => Failure(BadMoney(texts[0]))
      case Some(x) =>
        match ParseMoney(number, texts[1..])
        case Failure(e) =>
          Failure(e)
        case Success(xs) =>
          Success([x] + xs)
  }

  /** The converted money texts of the surviving rows, in order. */
  function MoneyTexts(dated: seq<Dated>, mi: nat): (r: seq<string>)
    requires forall k :: 0 <= k < |dated| ==> mi < |dated[k].cells|
    ensures |r| == |dated|
    ensures forall k :: 0 <= k < |dated| ==> r[k] == MoneyText(dated[k].cells[mi])
  {
    seq(|dated|, k requires 0 <= k < |dated| => MoneyText(dated[k].cells[mi]))
  }

  /** Where the columns the cleaner reads sit in the raw table, found by
      trimmed label; None where the table has no such column. */
  datatype Schema = Schema(
    date: Option<nat>, money: Option<nat>, name: Option<nat>,
    weekday: Option<nat>, month: Option<nat>)

  /** Every column position of `s` is a column of a table `width` wide. */
  predicate Fits(s: Schema, width: nat) {
    && (s.date.Some? ==> s.date.value < width)
    && (s.money.Some? ==> s.money.value < width)
    && (s.name.Some? ==> s.name.value < width)
    && (s.weekday.Some? ==> s.weekday.value < width)
    && (s.month.Some? ==> s.month.value < width)
  }

  /** The three columns the cleaner cannot do without. */
  predicate Required(s: Schema) {
    s.date.Some? && s.money.Some? && s.name.Some?
  }

  /** The column positions of a table with these labels. */
  function SchemaOf(labels: seq<string>): (s: Schema)
    ensures Fits(s, |labels|)
    ensures s.date.Some? <==> HasLabel(labels, "Date")
    ensures s.money.Some? <==> HasLabel(labels, "money")
    ensures s.name.Some? <==> HasLabel(labels, "coffee_name")
    ensures s.weekday.Some? <==> HasLabel(labels, "Weekdaysort")
    ensures s.month.Some? <==> HasLabel(labels, "Monthsort")
  {
    Schema(
      Lookup(labels, "Date"), Lookup(labels, "money"), Lookup(labels, "coffee_name"),
      Lookup(labels, "Weekdaysort"), Lookup(labels, "Monthsort"))
  }

  /** The rows of `t` that survive the date filter. */
  function DatedRows(p: Parsers, t: RawTable): (r: seq<Dated>)
    requires Rectangular(t) && SchemaOf(t.labels).date.Some?
    ensures forall k :: 0 <= k < |r| ==> |r[k].cells| == |t.labels|
    ensures DatedFits(p, SchemaOf(t.labels), r)
  {
    KeepDated(p, t.rows, |t.labels|, SchemaOf(t.labels).date.value)
  }

  /** The cleaned form of one surviving row, given its parsed money. */
  function CleanRowOf(s: Schema, d: Dated, money: real): CleanRow
    requires s.name.Some? && Fits(s, |d.cells|)
  {
    CleanRow(
      d.date,
      money,
      Strip(CellText(d.cells[s.name.value])),
      if s.weekday.Some? then d.cells[s.weekday.value] else Int(Weekday(d.date) + 1),
      if s.month.Some? then d.cells[s.month.value] else Int(Month(d.date)))
  }

  /** How a cleaned row `c` relates to the raw row `d` it came from. */
  ghost predicate Cleaned(p: Parsers, s: Schema, d: Dated, c: CleanRow)
    requires Required(s) && Fits(s, |d.cells|)
  {
    && p.date(d.cells[s.date.value]) == Some(c.date)
    && MoneyValue(p, d.cells[s.money.value]) == Some(c.money)
    && c.name == Strip(CellText(d.cells[s.name.value]))
    && (s.weekday.Some? ==> c.weekday == d.cells[s.weekday.value])
    && (s.weekday.None? ==> c.weekday == Int(Weekday(c.date) + 1) && 1 <= c.weekday.i <= 7)
    && (s.month.Some? ==> c.month == d.cells[s.month.value])
    && (s.month.None? ==> c.month == Int(Month(c.date)) && 1 <= c.month.i <= 12)
  }

  lemma CleanRowOfIsCleaned(p: Parsers, s: Schema, d: Dated, money: real)
    requires Required(s) && Fits(s, |d.cells|)
    requires p.date(d.cells[s.date.value]) == Some(d.date)
    requires MoneyValue(p, d.cells[s.money.value]) == Some(money)
    ensures Cleaned(p, s, d, CleanRowOf(s, d, money))
  {
  }

  /** The cleaned rows of the surviving rows, given their parsed money. */
  function CleanRows(p: Parsers, s: Schema, dated: seq<Dated>, amounts: seq<real>): (r: seq<CleanRow>)
    requires Required(s) && |amounts| == |dated|
    requires forall k :: 0 <= k < |dated| ==>
      && Fits(s, |dated[k].cells|)
      && p.date(dated[k].cells[s.date.value]) == Some(dated[k].date)
      && MoneyValue(p, dated[k].cells[s.money.value]) == Some(amounts[k])
    ensures |r| == |dated|
    ensures forall k :: 0 <= k < |dated| ==> Cleaned(p, s, dated[k], r[k])
  {
    if dated == [] then []
    else
      var rest := CleanRows(p, s, dated[1..], amounts[1..]);
      CleanRowOfIsCleaned(p, s, dated[0], amounts[0]);
      [CleanRowOf(s, dated[0], amounts[0])] + rest
  }

  /** Every surviving row fits the schema and carries its parsed date. */
  predicate DatedFits(p: Parsers, s: Schema, dated: seq<Dated>)
    requires s.date.Some?
  {
    forall k :: 0 <= k < |dated| ==>
      Fits(s, |dated[k].cells|) && p.date(dated[k].cells[s.date.value]) == Some(dated[k].date)
  }

  /** Whether every surviving row's money parses. */
  predicate AllMoneyParses(p: Parsers, s: Schema, dated: seq<Dated>)
    requires s.money.Some?
    requires forall k :: 0 <= k < |dated| ==> s.money.value < |dated[k].cells|
  {
    forall k :: 0 <= k < |dated| ==> MoneyValue(p, dated[k].cells[s.money.value]).Some?
  }

  /** Row `k` is the first surviving row whose money does not convert. */
  predicate FirstBadMoney(p: Parsers, s: Schema, dated: seq<Dated>, k: int)
    requires s.money.Some?
    requires forall j :: 0 <= j < |dated| ==> s.money.value < |dated[j].cells|
  {
    && 0 <= k < |dated|
    && MoneyValue(p, dated[k].cells[s.money.value]).None?
    && forall j :: 0 <= j < k ==> MoneyValue(p, dated[j].cells[s.money.value]).Some?
  }

  /** A failed money conversion names the text of the first surviving row
      whose money does not convert, as the `ValueError` of `astype(float)`
      names the offending value. */
  lemma MoneyErrorNamesFirst(p: Parsers, s: Schema, dated: seq<Dated>)
    requires s.money.Some?
    requires forall j :: 0 <= j < |dated| ==> s.money.value < |dated[j].cells|
    ensures var m := ParseMoney(p.number, MoneyTexts(dated, s.money.value));
      m.Failure? ==> exists k :: FirstBadMoney(p, s, dated, k) && m.error == BadMoney(MoneyText(dated[k].cells[s.money.value]))
  {
    var mi := s.money.value;
    var texts := MoneyTexts(dated, mi);
    var m := ParseMoney(p.number, texts);
    if m.Failure? {
      var k :| 0 <= k < |texts| && p.number(texts[k]).None? && m.error == BadMoney(texts[k]) &&
        forall j :: 0 <= j < k ==> p.number(texts[j]).Some?;
      assert texts[k] == MoneyText(dated[k].cells[mi]);
      forall j | 0 <= j < k
        ensures MoneyValue(p, dated[j].cells[mi]).Some?
      {
        assert texts[j] == MoneyText(dated[j].cells[mi]);
      }
      assert FirstBadMoney(p, s, dated, k);
    }
  }

  /** The part of `clean_raw_data` after the date filter: the money column
      check, the money conversion, then the coffee_name column check. */
  function CleanDated(p: Parsers, s: Schema, dated: seq<Dated>): (r: Result<seq<CleanRow>, CleanError>)
    requires s.date.Some? && DatedFits(p, s, dated)
    ensures s.money.None? ==> r == Failure(MissingColumn("money"))
    ensures s.money.Some? ==> (r.Failure? && r.error.BadMoney? <==> !AllMoneyParses(p, s, dated))
    ensures s.money.Some? && s.name.None? && AllMoneyParses(p, s, dated) ==> r == Failure(MissingColumn("coffee_name"))
    ensures Required(s) && AllMoneyParses(p, s, dated) ==> r.Success?
    ensures s.money.Some? && r.Failure? && r.error.BadMoney? ==>
      exists k :: FirstBadMoney(p, s, dated, k) && r.error == BadMoney(MoneyText(dated[k].cells[s.money.value]))
    ensures r.Success? ==>
      && Required(s) && |r.value| == |dated|
      && forall k :: 0 <= k < |dated| ==> Cleaned(p, s, dated[k], r.value[k])
  {
    if s.money.None? then Failure(MissingColumn("money"))
    else
      match ParseMoney(p.number, MoneyTexts(dated, s.money.value))
      case Failure(e) =>
        MoneyErrorNamesFirst(p, s, dated);
        Failure(e)
      case Success(amounts) =>
        if s.name.None? then Failure(MissingColumn("coffee_name"))
        else Success(CleanRows(p, s, dated, amounts))
  }

  /** The table has the three required columns and the money of every row
      with a parsable date converts. */
  predicate Cleanable(p: Parsers, t: RawTable)
    requires Rectangular(t)
  {
    Required(SchemaOf(t.labels)) && AllMoneyParses(p, SchemaOf(t.labels), DatedRows(p, t))
  }

  /** `clean_raw_data`. The checks run in the code's order: the Date
      column, the date filter, the money column, the money conversion, and
      only then the coffee_name column. */
  function Clean(p: Parsers, t: RawTable): (r: Result<seq<CleanRow>, CleanError>)
    requires Rectangular(t)
    ensures SchemaOf(t.labels).date.None? ==> r == Failure(MissingColumn("Date"))
    ensures SchemaOf(t.labels).date.Some? ==> r == CleanDated(p, SchemaOf(t.labels), DatedRows(p, t))
    ensures r.Success? ==> Required(SchemaOf(t.labels)) && |r.value| == |DatedRows(p, t)|
    ensures Cleanable(p, t) ==> r.Success?
  {
    var s := SchemaOf(t.labels);
    if s.date.None? then Failure(MissingColumn("Date"))
    else CleanDated(p, s, DatedRows(p, t))
  }

  /** Without a column labelled `Date` (after trimming) the cleaner fails,
      and reports the date column whatever else is missing. */
  lemma MissingDateReportedFirst(p: Parsers, t: RawTable)
    requires Rectangular(t)
    requires forall k :: 0 <= k < |t.labels| ==> Strip(t.labels[k]) != "Date"
    ensures Clean(p, t) == Failure(MissingColumn("Date"))
  {
  }

  /** The table without its row `j`. */
  function DropRow(t: RawTable, j: nat): (t': RawTable)
    requires Rectangular(t) && j < |t.rows|
    ensures Rectangular(t') && t'.labels == t.labels
    ensures t'.rows == t.rows[..j] + t.rows[j + 1..]
  {
    var rows := t.rows[..j] + t.rows[j + 1..];
    assert forall k :: 0 <= k < |rows| ==> rows[k] == if k < j then t.rows[k] else t.rows[k + 1];
    RawTable(t.labels, rows)
  }

  /** Dropping a row whose date does not parse leaves the filter's output
      as it was. */
  lemma KeepDatedDrop(p: Parsers, rows: seq<seq<Cell>>, w: nat, di: nat, j: nat)
    requires di < w && j < |rows|
    requires forall k :: 0 <= k < |rows| ==> |rows[k]| == w
    requires p.date(rows[j][di]).None?
    ensures KeepDated(p, rows, w, di) == KeepDated(p, rows[..j] + rows[j + 1..], w, di)
  {
    assert rows == rows[..j] + ([rows[j]] + rows[j + 1..]);
    KeepDatedAppend(p, rows[..j], [rows[j]] + rows[j + 1..], w, di);
    KeepDatedAppend(p, [rows[j]], rows[j + 1..], w, di);
    KeepDatedAppend(p, rows[..j], rows[j + 1..], w, di);
    KeepDatedOne(p, rows[j], w, di);
  }

  /** A row whose date does not parse is dropped without a trace: removing
      it from the input changes nothing, even when its money is malformed. */
  lemma CleanIgnoresUndatedRow(p: Parsers, t: RawTable, j: nat)
    requires Rectangular(t) && SchemaOf(t.labels).date.Some? && j < |t.rows|
    requires p.date(t.rows[j][SchemaOf(t.labels).date.value]).None?
    ensures Clean(p, t) == Clean(p, DropRow(t, j))
  {
    var t' := DropRow(t, j);
    KeepDatedDrop(p, t.rows, |t.labels|, SchemaOf(t.labels).date.value, j);
    assert DatedRows(p, t) == DatedRows(p, t');
  }

  /** A row whose date parses but whose money does not makes the whole
      cleaning fail: the policy for money is stricter than for dates. */
  lemma CleanRejectsBadMoney(p: Parsers, t: RawTable, j: nat)
    requires Rectangular(t) && j < |t.rows|
    ensures
      && SchemaOf(t.labels).date.Some? && SchemaOf(t.labels).money.Some?
      && p.date(t.rows[j][SchemaOf(t.labels).date.value]).Some?
      && MoneyValue(p, t.rows[j][SchemaOf(t.labels).money.value]).None?
      ==> Clean(p, t).Failure? && Clean(p, t).error.BadMoney?
  {
    var s := SchemaOf(t.labels);
    if && s.date.Some? && s.money.Some?
       && p.date(t.rows[j][s.date.value]).Some?
       && MoneyValue(p, t.rows[j][s.money.value]).None?
    {
      var dated := DatedRows(p, t);
      var d := Dated(p.date(t.rows[j][s.date.value]).value, t.rows[j]);
      assert d in dated;
      var k :| 0 <= k < |dated| && dated[k] == d;
      assert MoneyValue(p, dated[k].cells[s.money.value]).None?;
      assert !AllMoneyParses(p, s, dated);
      assert Clean(p, t) == CleanDated(p, s, dated);
    }
  }
}

=== FILE: daily.dfy ===
/** The daily aggregator (`build_daily_from_raw`): one row per distinct
    (Date, Weekdaysort, Monthsort, coffee_name), counting the transactions
    into Amount_of_Sale and summing their money into Total_Revenue; the
    columns then take their feature-table names (coffee_name becomes
    Menu_Name, Weekdaysort becomes Weeksort). */
module Daily {
  import opened Wrappers
  import opened Calendar
  import opened Frames
  import opened Cleaning

  /** The group-by key. */
  datatype Key = Key(date: Day, weekday: Cell, month: Cell, name: string)

  function KeyOf(r: CleanRow): Key {
    Key(r.date, r.weekday, r.month, r.name)
  }

  /** One row of the daily table, with the renamed columns: Weeksort,
      Monthsort, Menu_Name, Amount_of_Sale and Total_Revenue. */
  datatype DailyRow = DailyRow(
    date: Day, weeksort: Cell, monthsort: Cell, menu: string,
    amount: nat, revenue: real)

  function GroupKey(g: DailyRow): Key {
    Key(g.date, g.weeksort, g.monthsort, g.menu)
  }

  /** Reference count: how many cleaned rows carry key `k`. */
  function CountKey(rows: seq<CleanRow>, k: Key): nat {
    if rows == [] then 0
    else CountKey(rows[..|rows| - 1], k) + (if KeyOf(rows[|rows| - 1]) == k then 1 else 0)
  }

  /** Reference sum: the money of the cleaned rows that carry key `k`. */
  function SumKey(rows: seq<CleanRow>, k: Key): real {
    if rows == [] then 0.0
    else SumKey(rows[..|rows| - 1], k) + (if KeyOf(rows[|rows| - 1]) == k then rows[|rows| - 1].money else 0.0)
  }

  /** Sum of the money of all cleaned rows. */
  function TotalMoney(rows: seq<CleanRow>): real {
    if rows == [] then 0.0 else TotalMoney(rows[..|rows| - 1]) + rows[|rows| - 1].money
  }

  /** Sum of Amount_of_Sale over a daily table. */
  function TotalAmount(g: seq<DailyRow>): nat {
    if g == [] then 0 else TotalAmount(g[..|g| - 1]) + g[|g| - 1].amount
  }

  /** Sum of Total_Revenue over a daily table. */
  function TotalRevenue(g: seq<DailyRow>): real {
    if g == [] then 0.0 else TotalRevenue(g[..|g| - 1]) + g[|g| - 1].revenue
  }

  /** No key occurs twice. */
  predicate UniqueKeys(g: seq<DailyRow>) {
    forall i, j :: 0 <= i < j < |g| ==> GroupKey(g[i]) != GroupKey(g[j])
  }

  /** Every key of `rows` has its group in `g`. */
  ghost predicate Covers(g: seq<DailyRow>, rows: seq<CleanRow>) {
    forall j :: 0 <= j < |rows| ==> exists i :: 0 <= i < |g| && GroupKey(g[i]) == KeyOf(rows[j])
  }

  /** Every group of `g` has a key that occurs in `rows`. */
  ghost predicate FromRows(g: seq<DailyRow>, rows: seq<CleanRow>) {
    forall i :: 0 <= i < |g| ==> exists j :: 0 <= j < |rows| && KeyOf(rows[j]) == GroupKey(g[i])
  }

  /** Each group holds the count and the money sum of its key's rows. */
  ghost predicate Counts(g: seq<DailyRow>, rows: seq<CleanRow>) {
    forall i :: 0 <= i < |g| ==>
      g[i].amount == CountKey(rows, GroupKey(g[i])) && g[i].revenue == SumKey(rows, GroupKey(g[i]))
  }

  /** `g` is the aggregation of `rows`: keys are unique, every key of
      `rows` has its group, every group comes from `rows`, and each group
      holds the count and money sum of its key. */
  ghost predicate Aggregates(g: seq<DailyRow>, rows: seq<CleanRow>) {
    UniqueKeys(g) && Covers(g, rows) && FromRows(g, rows) && Counts(g, rows)
  }

  /** Position of the group with key `k`, if there is one. */
  function FindGroup(g: seq<DailyRow>, k: Key): (r: Option<nat>)
    ensures r.Some? ==> r.value < |g| && GroupKey(g[r.value]) == k
    ensures r.None? ==> forall i :: 0 <= i < |g| ==> GroupKey(g[i]) != k
  {
    if g == [] then None
    else if GroupKey(g[|g| - 1]) == k then Some(|g| - 1)
    else FindGroup(g[..|g| - 1], k)
  }

  /** Accounts for one more cleaned row: its group's count and sum grow,
      or a new group starts at the end. */
  function AddRow(g: seq<DailyRow>, row: CleanRow): seq<DailyRow> {
    match FindGroup(g, KeyOf(row))
    case Some(i) =>
      g[i := g[i].(amount := g[i].amount + 1, revenue := g[i].revenue + row.money)]
    case None =>
      g + [DailyRow(row.date, row.weekday, row.month, row.name, 1, row.money)]
  }

  lemma {:induction false} CountAbsent(rows: seq<CleanRow>, k: Key)
    requires forall j :: 0 <= j < |rows| ==> KeyOf(rows[j]) != k
    ensures CountKey(rows, k) == 0 && SumKey(rows, k) == 0.0
  {
    if rows != [] {
      CountAbsent(rows[..|rows| - 1], k);
    }
  }

  lemma AddRowKeys(g: seq<DailyRow>, row: CleanRow)
    ensures |AddRow(g, row)| >= |g|
    ensures forall i :: 0 <= i < |g| ==> GroupKey(AddRow(g, row)[i]) == GroupKey(g[i])
    ensures FindGroup(g, KeyOf(row)).None? ==>
      AddRow(g, row) == g + [DailyRow(row.date, row.weekday, row.month, row.name, 1, row.money)]
    ensures FindGroup(g, KeyOf(row)).Some? ==> |AddRow(g, row)| == |g|
  {
  }

  lemma AddRowUnique(g: seq<DailyRow>, row: CleanRow)
    requires UniqueKeys(g)
    ensures UniqueKeys(AddRow(g, row))
  {
    AddRowKeys(g, row);
  }

  lemma AddRowCovers(g: seq<DailyRow>, rows: seq<CleanRow>, row: CleanRow)
    requires Covers(g, rows)
    ensures Covers(AddRow(g, row), rows + [row])
  {
    var rows', g' := rows + [row], AddRow(g, row);
    AddRowKeys(g, row);
    forall j | 0 <= j < |rows'|
      ensures exists i :: 0 <= i < |g'| && GroupKey(g'[i]) == KeyOf(rows'[j])
    {
      if j == |rows| {
        match FindGroup(g, KeyOf(row))
        case Some(i0) =>
          assert GroupKey(g'[i0]) == KeyOf(rows'[j]);
        case None =>
          assert GroupKey(g'[|g|]) == KeyOf(rows'[j]);
      } else {
        assert rows'[j] == rows[j];
        var i :| 0 <= i < |g| && GroupKey(g[i]) == KeyOf(rows[j]);
        assert GroupKey(g'[i]) == KeyOf(rows'[j]);
      }
    }
  }

  lemma AddRowFromRows(g: seq<DailyRow>, rows: seq<CleanRow>, row: CleanRow)
    requires FromRows(g, rows)
    ensures FromRows(AddRow(g, row), rows + [row])
  {
    var rows', g' := rows + [row], AddRow(g, row);
    AddRowKeys(g, row);
    forall i | 0 <= i < |g'|
      ensures exists j :: 0 <= j < |rows'| && KeyOf(rows'[j]) == GroupKey(g'[i])
    {
      if i < |g| {
        var j :| 0 <= j < |rows| && KeyOf(rows[j]) == GroupKey(g[i]);
        assert rows'[j] == rows[j];
      } else {
        assert KeyOf(rows'[|rows|]) == GroupKey(g'[i]);
      }
    }
  }

  lemma CountsAppend(rows: seq<CleanRow>, row: CleanRow, k: Key)
    ensures CountKey(rows + [row], k) == CountKey(rows, k) + (if KeyOf(row) == k then 1 else 0)
    ensures SumKey(rows + [row], k) == SumKey(rows, k) + (if KeyOf(row) == k then row.money else 0.0)
  {
    assert (rows + [row])[..|rows|] == rows;
  }

  lemma AddRowCounts(g: seq<DailyRow>, rows: seq<CleanRow>, row: CleanRow)
    requires UniqueKeys(g) && Covers(g, rows) && Counts(g, rows)
    ensures Counts(AddRow(g, row), rows + [row])
  {
    var rows', g', k := rows + [row], AddRow(g, row), KeyOf(row);
    AddRowKeys(g, row);
    forall i | 0 <= i < |g'|
      ensures g'[i].amount == CountKey(rows', GroupKey(g'[i])) && g'[i].revenue == SumKey(rows', GroupKey(g'[i]))
    {
      CountsAppend(rows, row, GroupKey(g'[i]));
      if i == |g| {
        assert forall j :: 0 <= j < |rows| ==> KeyOf(rows[j]) != k;
        CountAbsent(rows, k);
      }
    }
  }

  lemma AddRowAggregates(g: seq<DailyRow>, rows: seq<CleanRow>, row: CleanRow)
    requires Aggregates(g, rows)
    ensures Aggregates(AddRow(g, row), rows + [row])
  {
    AddRowUnique(g, row);
    AddRowCovers(g, rows, row);
    AddRowFromRows(g, rows, row);
    AddRowCounts(g, rows, row);
  }

  /** `build_daily_from_raw`: the daily table, groups in order of first
      appearance. */
  function Aggregate(rows: seq<CleanRow>): seq<DailyRow> {
    if rows == [] then [] else AddRow(Aggregate(rows[..|rows| - 1]), rows[|rows| - 1])
  }

  /** The daily table is the aggregation of the cleaned rows. */
  lemma {:induction false} AggregateCorrect(rows: seq<CleanRow>)
    ensures Aggregates(Aggregate(rows), rows)
  {
    if rows != [] {
      var init := rows[..|rows| - 1];
      assert rows == init + [rows[|rows| - 1]];
      AggregateCorrect(init);
      AddRowAggregates(Aggregate(init), init, rows[|rows| - 1]);
    }
  }

  lemma {:induction false} TotalsUpdate(g: seq<DailyRow>, i: nat, x: DailyRow)
    requires i < |g|
    ensures TotalAmount(g[i := x]) == TotalAmount(g) - g[i].amount + x.amount
    ensures TotalRevenue(g[i := x]) == TotalRevenue(g) - g[i].revenue + x.revenue
  {
    var g' := g[i := x];
    if i < |g| - 1 {
      assert g'[..|g'| - 1] == g[..|g| - 1][i := x];
      TotalsUpdate(g[..|g| - 1], i, x);
    } else {
      assert g'[..|g'| - 1] == g[..|g| - 1];
    }
  }

  lemma AddRowTotals(g: seq<DailyRow>, row: CleanRow)
    ensures TotalAmount(AddRow(g, row)) == TotalAmount(g) + 1
    ensures TotalRevenue(AddRow(g, row)) == TotalRevenue(g) + row.money
  {
    match FindGroup(g, KeyOf(row))
    case Some(i) =>
      TotalsUpdate(g, i, g[i].(amount := g[i].amount + 1, revenue := g[i].revenue + row.money));
    case None =>
      var g' := g + [DailyRow(row.date, row.weekday, row.month, row.name, 1, row.money)];
      assert g'[..|g'| - 1] == g;
  }

  /** Aggregation neither loses nor invents transactions: Amount_of_Sale
      sums to the number of cleaned rows and Total_Revenue to their money. */
  lemma {:induction false} AggregateConserves(rows: seq<CleanRow>)
    ensures TotalAmount(Aggregate(rows)) == |rows|
    ensures TotalRevenue(Aggregate(rows)) == TotalMoney(rows)
  {
    if rows != [] {
      var init, row := rows[..|rows| - 1], rows[|rows| - 1];
      AggregateConserves(init);
      AddRowTotals(Aggregate(init), row);
    }
  }

  /** Weekdaysort and Monthsort are functions of the date. */
  ghost predicate RanksFollowDate(rows: seq<CleanRow>) {
    forall i, j :: 0 <= i < |rows| && 0 <= j < |rows| && rows[i].date == rows[j].date ==>
      rows[i].weekday == rows[j].weekday && rows[i].month == rows[j].month
  }

  /** No (Date, Menu_Name) pair occurs twice. */
  predicate UniqueDateMenu(g: seq<DailyRow>) {
    forall i, j :: 0 <= i < j < |g| ==> g[i].date != g[j].date || g[i].menu != g[j].menu
  }

  /** A cleaned row that group `i` came from. */
  lemma SourceRow(g: seq<DailyRow>, rows: seq<CleanRow>, i: nat) returns (a: nat)
    requires FromRows(g, rows) && i < |g|
    ensures a < |rows| && KeyOf(rows[a]) == GroupKey(g[i])
  {
    var k := GroupKey(g[i]);
    assert exists j :: 0 <= j < |rows| && KeyOf(rows[j]) == k;
    var j :| 0 <= j < |rows| && KeyOf(rows[j]) == k;
    a := j;
  }

  lemma UniqueDateMenuFromKeys(g: seq<DailyRow>, rows: seq<CleanRow>)
    requires UniqueKeys(g) && FromRows(g, rows) && RanksFollowDate(rows)
    ensures UniqueDateMenu(g)
  {
    forall i, j | 0 <= i < j < |g|
      ensures g[i].date != g[j].date || g[i].menu != g[j].menu
    {
      var a := SourceRow(g, rows, i);
      var b := SourceRow(g, rows, j);
      assert rows[a].date == rows[b].date ==>
        rows[a].weekday == rows[b].weekday && rows[a].month == rows[b].month;
    }
  }

  /** The daily table has one row per date and item as long as the ranks
      follow the date (they do when the cleaner derived them). */
  lemma AggregateUniqueDateMenu(rows: seq<CleanRow>)
    requires RanksFollowDate(rows)
    ensures UniqueDateMenu(Aggregate(rows))
  {
    AggregateCorrect(rows);
    UniqueDateMenuFromKeys(Aggregate(rows), rows);
  }

  /** Without that condition a date and item can occur twice: two sales of
      one item on one day whose given Weekdaysort values differ form two
      groups. */
  lemma AggregateSplitsOnRanks()
    ensures !UniqueDateMenu(Aggregate([
      CleanRow(0, 1.0, "Latte", Int(4), Int(1)),
      CleanRow(0, 1.0, "Latte", Int(5), Int(1))]))
  {
    var r0 := CleanRow(0, 1.0, "Latte", Int(4), Int(1));
    var r1 := CleanRow(0, 1.0, "Latte", Int(5), Int(1));
    var g0 := DailyRow(0, Int(4), Int(1), "Latte", 1, 1.0);
    var g1 := DailyRow(0, Int(5), Int(1), "Latte", 1, 1.0);
    assert [r0, r1][..1] == [r0] && [r0][..0] == [] && [g0][..0] == [];
    assert Aggregate([r0]) == AddRow([], r0);
    assert FindGroup([], KeyOf(r0)) == None;
    assert AddRow([], r0) == [g0];
    assert Aggregate([r0, r1]) == AddRow([g0], r1);
    assert GroupKey(g0) != KeyOf(r1);
    assert FindGroup([g0], KeyOf(r1)) == None;
    assert AddRow([g0], r1) == [g0, g1];
    assert [g0, g1][0].date == [g0, g1][1].date && [g0, g1][0].menu == [g0, g1][1].menu;
  }
}

=== FILE: features.dfy ===
/** The feature builder (`add_features`): the daily table sorted by
    (Menu_Name, Date), with day_number counted from the earliest date,
    each item's sale one and seven rows earlier (0 where there is none),
    and a weekend flag read from Weeksort. */
module Features {
  import opened Wrappers
  import opened Strings
  import opened Calendar
  import opened Frames
  import opened Daily

  /** The model's input columns, in the order the model expects them. */
  const FeatureCols: seq<string> := [
    "Weeksort", "Monthsort", "Menu_Name", "Total_Revenue",
    "day_number", "sale_yesterday", "sale_last_week", "is_weekend"]

  // ---------------------------------------------------------------------
  // Sorting by (Menu_Name, Date)
  // ---------------------------------------------------------------------

  /** `a` may come before `b`: item names by code point, then dates. */
  predicate RowLe(a: DailyRow, b: DailyRow) {
    if a.menu == b.menu then a.date <= b.date else StrLe(a.menu, b.menu)
  }

  lemma RowLeTotal(a: DailyRow, b: DailyRow)
    ensures RowLe(a, b) || RowLe(b, a)
  {
    StrLeTotal(a.menu, b.menu);
  }

  lemma RowLeTransitive(a: DailyRow, b: DailyRow, c: DailyRow)
    ensures RowLe(a, b) && RowLe(b, c) ==> RowLe(a, c)
  {
    StrLeTransitive(a.menu, b.menu, c.menu);
    StrLeAntisymmetric(a.menu, b.menu);
    StrLeAntisymmetric(b.menu, c.menu);
  }

  /** Rows of different items that are ordered both ways cannot exist. */
  lemma RowLeMenus(a: DailyRow, b: DailyRow)
    ensures RowLe(a, b) && RowLe(b, a) ==> a.menu == b.menu
  {
    StrLeAntisymmetric(a.menu, b.menu);
  }

  predicate Sorted(s: seq<DailyRow>) {
    forall i, j :: 0 <= i < j < |s| ==> RowLe(s[i], s[j])
  }

  /** `x` placed into sorted `s` after every row that precedes it. */
  function Insert(x: DailyRow, s: seq<DailyRow>): (r: seq<DailyRow>)
    requires Sorted(s)
    ensures |r| == |s| + 1
    ensures multiset(r) == multiset(s) + multiset{x}
    ensures forall j :: 0 <= j < |r| ==> r[j] == x || r[j] in s
    ensures Sorted(r)
  {
    if s == [] then [x]
    else if RowLe(x, s[0]) then
      forall j | 0 <= j < |s| ensures RowLe(x, s[j]) {
        RowLeTransitive(x, s[0], s[j]);
      }
      ConsSorted(x, s);
      [x] + s
    else
      var t := Insert(x, s[1..]);
      RowLeTotal(x, s[0]);
      Below(s[0], x, s[1..], t);
      ConsSorted(s[0], t);
      assert s == [s[0]] + s[1..];
      [s[0]] + t
  }

  lemma ConsSorted(y: DailyRow, t: seq<DailyRow>)
    requires Sorted(t)
    requires forall j :: 0 <= j < |t| ==> RowLe(y, t[j])
    ensures Sorted([y] + t)
  {
    assert forall j :: 0 < j <= |t| ==> ([y] + t)[j] == t[j - 1];
  }

  /** A row that precedes `x` and every row of `s` precedes every row of a
      sequence drawn from `x` and `s`. */
  lemma Below(y: DailyRow, x: DailyRow, s: seq<DailyRow>, t: seq<DailyRow>)
    requires RowLe(y, x)
    requires forall j :: 0 <= j < |s| ==> RowLe(y, s[j])
    requires forall j :: 0 <= j < |t| ==> t[j] == x || t[j] in s
    ensures forall j :: 0 <= j < |t| ==> RowLe(y, t[j])
  {
    forall j | 0 <= j < |t| ensures RowLe(y, t[j]) {
      if t[j] != x {
        var k :| 0 <= k < |s| && s[k] == t[j];
      }
    }
  }

  /** `sort_values(["Menu_Name", "Date"])`: a sorted permutation. */
  function SortRows(s: seq<DailyRow>): (r: seq<DailyRow>)
    ensures |r| == |s|
    ensures multiset(r) == multiset(s)
    ensures Sorted(r)
  {
    if s == [] then []
    else
      assert s == [s[0]] + s[1..];
      Insert(s[0], SortRows(s[1..]))
  }

  /** In a sorted table the rows of one item are adjacent: any row between
      two rows of an item belongs to that item. */
  lemma SortedContiguous(s: seq<DailyRow>, i: nat, j: nat, k: nat)
    requires Sorted(s) && i < j < k < |s|
    ensures s[i].menu == s[k].menu ==> s[j].menu == s[i].menu
  {
    RowLeMenus(s[i], s[j]);
    RowLeTransitive(s[j], s[k], s[i]);
  }

  // ---------------------------------------------------------------------
  // Per-item lags (groupby("Menu_Name").shift(k), NaN filled with 0)
  // ---------------------------------------------------------------------

  /** The position of the `k`-th row before position `i` that belongs to
      item `m`, scanning backwards. */
  function PrevSame(s: seq<DailyRow>, i: nat, m: string, k: nat): (r: Option<nat>)
    requires i <= |s| && k >= 1
    ensures r.Some? ==> r.value < i && s[r.value].menu == m
    decreases i
  {
    if i == 0 then None
    else if s[i - 1].menu != m then PrevSame(s, i - 1, m, k)
    else if k == 1 then Some(i - 1)
    else PrevSame(s, i - 1, m, k - 1)
  }

  /** The shifted Amount_of_Sale at row `i`: the amount `k` rows earlier in
      the same item, or 0 when the item has fewer than `k` earlier rows. */
  function Lag(s: seq<DailyRow>, i: nat, k: nat): nat
    requires i < |s| && k >= 1
  {
    match PrevSame(s, i, s[i].menu, k)
    case None => 0
    case Some(j) => s[j].amount
  }

  /** Reference definition: the rows of item `m`, in table order. */
  function History(s: seq<DailyRow>, m: string): (h: seq<DailyRow>)
    ensures |h| <= |s|
  {
    if s == [] then []
    else
      var init := History(s[..|s| - 1], m);
      if s[|s| - 1].menu == m then init + [s[|s| - 1]] else init
  }

  /** The amount `k` entries from the end of `h`, or 0 when `h` is shorter:
      what a shift by `k` followed by `fillna(0)` yields at the row after
      the history `h`. */
  function KthLast(h: seq<DailyRow>, k: nat): nat
    requires k >= 1
  {
    if |h| >= k then h[|h| - k].amount else 0
  }

  /** The backward scan finds exactly the `k`-th last row of the item's
      history before position `i`. */
  lemma {:induction false} PrevSameIsHistory(s: seq<DailyRow>, i: nat, m: string, k: nat)
    requires i <= |s| && k >= 1
    ensures var h := History(s[..i], m);
      && (PrevSame(s, i, m, k).Some? <==> |h| >= k)
      && (PrevSame(s, i, m, k).Some? ==> s[PrevSame(s, i, m, k).value] == h[|h| - k])
    decreases i
  {
    if i > 0 {
      assert s[..i][..i - 1] == s[..i - 1];
      if s[i - 1].menu != m {
        PrevSameIsHistory(s, i - 1, m, k);
      } else if k > 1 {
        PrevSameIsHistory(s, i - 1, m, k - 1);
      }
    }
  }

  /** The lag equals the item's history entry `k` places back. */
  lemma LagIsHistory(s: seq<DailyRow>, i: nat, k: nat)
    requires i < |s| && k >= 1
    ensures Lag(s, i, k) == KthLast(History(s[..i], s[i].menu), k)
  {
    PrevSameIsHistory(s, i, s[i].menu, k);
  }

  lemma {:induction false} PrevSameAbsent(s: seq<DailyRow>, i: nat, m: string, k: nat)
    requires i <= |s| && k >= 1
    requires forall j :: 0 <= j < i ==> s[j].menu != m
    ensures PrevSame(s, i, m, k) == None
    decreases i
  {
    if i > 0 {
      PrevSameAbsent(s, i - 1, m, k);
    }
  }

  /** On a sorted table the per-item shift is positional: the `k`-th
      earlier row of the item is the row `k` places up, if that row is of
      the same item. */
  lemma {:induction false} PrevSameSorted(s: seq<DailyRow>, i: nat, m: string, k: nat)
    requires Sorted(s) && i < |s| && s[i].menu == m && k >= 1
    ensures PrevSame(s, i, m, k) ==
      if i >= k && s[i - k].menu == m then Some(i - k) else None
    decreases i
  {
    if i > 0 {
      if s[i - 1].menu != m {
        forall j | 0 <= j < i - 1 ensures s[j].menu != m {
          SortedContiguous(s, j, i - 1, i);
        }
        PrevSameAbsent(s, i - 1, m, k);
      } else if k > 1 {
        PrevSameSorted(s, i - 1, m, k - 1);
      }
    }
  }

  /** On a sorted table the positional form agrees with the history. */
  lemma PositionalIsHistory(s: seq<DailyRow>, i: nat, k: nat)
    requires Sorted(s) && i < |s| && k >= 1
    ensures (if i >= k && s[i - k].menu == s[i].menu then s[i - k].amount else 0) ==
      KthLast(History(s[..i], s[i].menu), k)
  {
    PrevSameSorted(s, i, s[i].menu, k);
    PrevSameIsHistory(s, i, s[i].menu, k);
  }

  lemma LagSorted(s: seq<DailyRow>, k: nat)
    requires Sorted(s) && k >= 1
    ensures forall i :: 0 <= i < |s| ==>
      Lag(s, i, k) == if i >= k && s[i - k].menu == s[i].menu then s[i - k].amount else 0
  {
    forall i | 0 <= i < |s|
      ensures Lag(s, i, k) == if i >= k && s[i - k].menu == s[i].menu then s[i - k].amount else 0
    {
      PrevSameSorted(s, i, s[i].menu, k);
    }
  }

  // ---------------------------------------------------------------------
  // day_number and is_weekend
  // ---------------------------------------------------------------------

  /** The earliest date of a non-empty table. */
  function MinDate(s: seq<DailyRow>): (m: Day)
    requires |s| > 0
    ensures forall i :: 0 <= i < |s| ==> m <= s[i].date
    ensures exists i :: 0 <= i < |s| && s[i].date == m
  {
    if |s| == 1 then s[0].date
    else
      var rest := MinDate(s[1..]);
      assert forall i :: 1 <= i < |s| ==> s[i] == s[1..][i - 1];
      if s[0].date <= rest then s[0].date else rest
  }

  /** `Weeksort.isin([6, 7])`. */
  predicate WeekendRank(c: Cell) {
    c == Int(6) || c == Int(7)
  }

  // ---------------------------------------------------------------------
  // The feature table
  // ---------------------------------------------------------------------

  datatype FeatureRow = FeatureRow(
    row: DailyRow, dayNumber: int, saleYesterday: nat, saleLastWeek: nat, isWeekend: int)

  function Rows(f: seq<FeatureRow>): (r: seq<DailyRow>)
    ensures |r| == |f|
    ensures forall i {:trigger f[i]} :: 0 <= i < |f| ==> r[i] == f[i].row
  {
    seq(|f|, i requires 0 <= i < |f| => f[i].row)
  }

  /** Row `i` of the feature table over an already sorted table whose
      earliest date is `first`. */
  function FeatureAt(s: seq<DailyRow>, i: nat, first: Day): (f: FeatureRow)
    requires Sorted(s) && i < |s|
    ensures f.row == s[i] && f.dayNumber == s[i].date - first
    ensures f.saleYesterday == if i >= 1 && s[i - 1].menu == s[i].menu then s[i - 1].amount else 0
    ensures f.saleLastWeek == if i >= 7 && s[i - 7].menu == s[i].menu then s[i - 7].amount else 0
    ensures f.isWeekend == if WeekendRank(s[i].weeksort) then 1 else 0
  {
    PrevSameSorted(s, i, s[i].menu, 1);
    PrevSameSorted(s, i, s[i].menu, 7);
    FeatureRow(s[i], s[i].date - first, Lag(s, i, 1), Lag(s, i, 7),
      if WeekendRank(s[i].weeksort) then 1 else 0)
  }

  function Featurize(s: seq<DailyRow>, first: Day): (f: seq<FeatureRow>)
    requires Sorted(s)
    ensures |f| == |s| && Rows(f) == s
    ensures forall i :: 0 <= i < |s| ==> f[i] == FeatureAt(s, i, first)
  {
    var f := seq(|s|, i requires 0 <= i < |s| => FeatureAt(s, i, first));
    assert forall i :: 0 <= i < |f| ==> f[i].row == s[i];
    assert Rows(f) == s;
    f
  }

  /** `add_features`: the daily rows, reordered by (Menu_Name, Date), each
      extended with its derived columns (`FeatureAt`; the lemmas below
      state them column by column). */
  function AddFeatures(daily: seq<DailyRow>): (out: seq<FeatureRow>)
    ensures |out| == |daily|
    ensures multiset(Rows(out)) == multiset(daily)
    ensures Sorted(Rows(out))
    ensures forall i :: 0 <= i < |out| ==> out[i] == FeatureAt(Rows(out), i, MinDate(daily))
  {
    if daily == [] then [] else Featurize(SortRows(daily), MinDate(daily))
  }

  /** sale_yesterday and sale_last_week are the Amount_of_Sale one and seven
      rows up when that row is of the same item, and 0 otherwise. */
  lemma ShiftsArePositional(daily: seq<DailyRow>, i: nat)
    requires i < |daily|
    ensures var out := AddFeatures(daily);
      && out[i].saleYesterday ==
        (if i >= 1 && out[i - 1].row.menu == out[i].row.menu then out[i - 1].row.amount else 0)
      && out[i].saleLastWeek ==
        (if i >= 7 && out[i - 7].row.menu == out[i].row.menu then out[i - 7].row.amount else 0)
  {
    var out := AddFeatures(daily);
    assert out[i] == FeatureAt(Rows(out), i, MinDate(daily));
  }

  /** The same two columns as the per-item shift: the item's last and
      seventh-to-last Amount_of_Sale among the rows above, or 0 when the
      item has fewer rows above. */
  lemma ShiftsFollowHistory(daily: seq<DailyRow>, i: nat)
    requires i < |daily|
    ensures var out := AddFeatures(daily);
      && out[i].saleYesterday == KthLast(History(Rows(out)[..i], out[i].row.menu), 1)
      && out[i].saleLastWeek == KthLast(History(Rows(out)[..i], out[i].row.menu), 7)
  {
    var out := AddFeatures(daily);
    ShiftsArePositional(daily, i);
    ShiftsAsHistory(Rows(out), i, out[i].row.menu, out[i].saleYesterday, out[i].saleLastWeek);
  }

  lemma ShiftsAsHistory(s: seq<DailyRow>, i: nat, m: string, yesterday: nat, lastWeek: nat)
    requires Sorted(s) && i < |s| && s[i].menu == m
    requires yesterday == if i >= 1 && s[i - 1].menu == m then s[i - 1].amount else 0
    requires lastWeek == if i >= 7 && s[i - 7].menu == m then s[i - 7].amount else 0
    ensures yesterday == KthLast(History(s[..i], m), 1)
    ensures lastWeek == KthLast(History(s[..i], m), 7)
  {
    PositionalIsHistory(s, i, 1);
    PositionalIsHistory(s, i, 7);
  }

  /** is_weekend is 1 exactly when Weeksort is 6 or 7. */
  lemma WeekendFlag(daily: seq<DailyRow>, i: nat)
    requires i < |daily|
    ensures var out := AddFeatures(daily);
      && (out[i].isWeekend == 1 <==> WeekendRank(out[i].row.weeksort))
      && (out[i].isWeekend == 0 <==> !WeekendRank(out[i].row.weeksort))
  {
    var out := AddFeatures(daily);
    assert out[i] == FeatureAt(Rows(out), i, MinDate(daily));
  }

  /** day_number counts days from the earliest date of the whole table: it
      is never negative, it is 0 exactly on rows at that date, and it keeps
      the distance between any two dates. */
  lemma DayNumberFromEarliest(daily: seq<DailyRow>, i: nat, j: nat)
    requires i < |daily| && j < |daily|
    ensures var out := AddFeatures(daily);
      && out[i].dayNumber >= 0
      && (out[i].dayNumber == 0 <==> forall k :: 0 <= k < |daily| ==> out[i].row.date <= daily[k].date)
      && out[i].dayNumber - out[j].dayNumber == out[i].row.date - out[j].row.date
  {
    var out := AddFeatures(daily);
    assert out[i] == FeatureAt(Rows(out), i, MinDate(daily));
    assert out[j] == FeatureAt(Rows(out), j, MinDate(daily));
    assert out[i].row in multiset(daily) by {
      assert Rows(out)[i] in multiset(Rows(out));
    }
  }


  /** day_number is counted from the earliest date of the whole table, not
      of each item: here the only Mocha row is three days after the
      earliest (Latte) row and gets day_number 3. */
  lemma DayNumberIsGlobal()
    ensures var out := AddFeatures([
        DailyRow(3, Int(4), Int(1), "Mocha", 1, 3.0),
        DailyRow(0, Int(1), Int(1), "Latte", 2, 5.0)]);
      && out[1].row.menu == "Mocha"
      && (forall j :: 0 <= j < |out| && j != 1 ==> out[j].row.menu != "Mocha")
      && out[1].dayNumber == 3
  {
    var mocha := DailyRow(3, Int(4), Int(1), "Mocha", 1, 3.0);
    var latte := DailyRow(0, Int(1), Int(1), "Latte", 2, 5.0);
    assert StrLe(latte.menu, mocha.menu) && !StrLe(mocha.menu, latte.menu);
    assert [mocha, latte][1..] == [latte];
    assert SortRows([latte]) == [latte];
    assert !RowLe(mocha, latte);
    assert Insert(mocha, [latte]) == [latte] + Insert(mocha, []);
    assert SortRows([mocha, latte]) == [latte, mocha];
    var out := AddFeatures([mocha, latte]);
    assert Rows(out)[0] == latte && Rows(out)[1] == mocha;
    assert MinDate([mocha, latte]) == 0;
    assert out[1] == FeatureAt(Rows(out), 1, 0);
  }

  /** The shifts count rows, not days: when an item sold nothing for a few
      days, sale_yesterday is its sale on its previous selling day. */
  lemma ShiftCountsRows()
    ensures var out := AddFeatures([
        DailyRow(0, Int(4), Int(1), "Latte", 2, 5.0),
        DailyRow(5, Int(2), Int(1), "Latte", 1, 2.5)]);
      && out[1].row.date == out[0].row.date + 5
      && out[1].saleYesterday == 2
  {
    var a := DailyRow(0, Int(4), Int(1), "Latte", 2, 5.0);
    var b := DailyRow(5, Int(2), Int(1), "Latte", 1, 2.5);
    assert [a, b][1..] == [b];
    assert SortRows([b]) == [b];
    assert RowLe(a, b);
    assert SortRows([a, b]) == Insert(a, [b]) == [a, b];
    var out := AddFeatures([a, b]);
    assert Rows(out)[0] == a && Rows(out)[1] == b;
    assert out[1] == FeatureAt(Rows(out), 1, MinDate([a, b]));
  }

  // ---------------------------------------------------------------------
  // Column selection (`df_feat[FEATURE_COLS]`)
  // ---------------------------------------------------------------------

  /** One cell of the feature table. */
  datatype Value = CellValue(cell: Cell) | TextValue(text: string) | IntValue(n: int) | RealValue(x: real)

  /** The feature table's column `name` at row `f`, if it has one. */
  function Column(f: FeatureRow, name: string): Option<Value> {
    if name == "Date" then Some(IntValue(f.row.date))
    else if name == "Weeksort" then Some(CellValue(f.row.weeksort))
    else if name == "Monthsort" then Some(CellValue(f.row.monthsort))
    else if name == "Menu_Name" then Some(TextValue(f.row.menu))
    else if name == "Amount_of_Sale" then Some(IntValue(f.row.amount))
    else if name == "Total_Revenue" then Some(RealValue(f.row.revenue))
    else if name == "day_number" then Some(IntValue(f.dayNumber))
    else if name == "sale_yesterday" then Some(IntValue(f.saleYesterday))
    else if name == "sale_last_week" then Some(IntValue(f.saleLastWeek))
    else if name == "is_weekend" then Some(IntValue(f.isWeekend))
    else None
  }

  /** `row[cols]`: the named columns in order, or None (a KeyError) when one
      of them is missing. */
  function Select(f: FeatureRow, cols: seq<string>): (r: Option<seq<Value>>)
    ensures r.Some? <==> forall k :: 0 <= k < |cols| ==> Column(f, cols[k]).Some?
    ensures r.Some? ==> |r.value| == |cols|
    ensures r.Some? ==> forall k :: 0 <= k < |cols| ==> Some(r.value[k]) == Column(f, cols[k])
  {
    if cols == [] then Some([])
    else
      var rest := Select(f, cols[1..]);
      match Column(f, cols[0])
      case None => None
      case Some(v) =>
        if rest.None? then
          var k :| 0 <= k < |cols[1..]| && Column(f, cols[1..][k]).None?;
          assert Column(f, cols[k + 1]).None?;
          None
        else
          var r := [v] + rest.value;
          assert forall k :: 0 < k < |cols| ==> r[k] == rest.value[k - 1] && cols[k] == cols[1..][k - 1];
          Some(r)
  }

  /** Every name in FEATURE_COLS is a column of the feature table, so the
      model's input can always be selected, and the target Amount_of_Sale
      is not among the inputs. */
  lemma FeatureColsSelectable(f: FeatureRow)
    ensures Select(f, FeatureCols).Some?
    ensures |Select(f, FeatureCols).value| == 8
    ensures "Amount_of_Sale" !in FeatureCols
  {
    forall k | 0 <= k < |FeatureCols| ensures Column(f, FeatureCols[k]).Some? {
    }
  }
}

=== FILE: frames.dfy ===
/** The raw table the cleaner receives: column labels and rows of cells, as
    a CSV reader hands them over. */
module Frames {
  import opened Wrappers
  import opened Strings

  /** A raw cell: text, or an integer when the whole column was numeric. */
  datatype Cell = Text(s: string) | Int(i: int)

  /** The cell converted with `astype(str)`. */
  function CellText(c: Cell): string {
    match c
    case Text(s) => s
    case Int(i) => Show(i)
  }

  datatype RawTable = RawTable(labels: seq<string>, rows: seq<seq<Cell>>)

  /** Every row has one cell per column, as in any data frame. */
  predicate Rectangular(t: RawTable) {
    forall k :: 0 <= k < |t.rows| ==> |t.rows[k]| == |t.labels|
  }

  /** Column labels after `df.columns.str.strip()`. */
  function TrimLabels(labels: seq<string>): (r: seq<string>)
    ensures |r| == |labels|
    ensures forall k :: 0 <= k < |r| ==> r[k] == Strip(labels[k])
  {
    if labels == [] then [] else [Strip(labels[0])] + TrimLabels(labels[1..])
  }

  /** Position of the first entry of `xs` equal to `x`, if any. */
  function Find(xs: seq<string>, x: string): (r: Option<nat>)
    ensures r.Some? ==> r.value < |xs| && xs[r.value] == x && forall k :: 0 <= k < r.value ==> xs[k] != x
    ensures r.None? ==> forall k :: 0 <= k < |xs| ==> xs[k] != x
  {
    if xs == [] then None
    else if xs[0] == x then Some(0)
    else
      match Find(xs[1..], x)
      case None => None
      case Some(i) => Some(i + 1)
  }

  /** `name in df.columns` after the labels were trimmed. */
  predicate HasLabel(labels: seq<string>, name: string) {
    exists k :: 0 <= k < |labels| && Strip(labels[k]) == name
  }

  /** The position `df[name]` reads: the first column whose trimmed label is
      `name`, present exactly when `name in df.columns`. */
  function Lookup(labels: seq<string>, name: string): (r: Option<nat>)
    ensures r.Some? <==> HasLabel(labels, name)
    ensures r.Some? ==>
      && r.value < |labels| && Strip(labels[r.value]) == name
      && forall k :: 0 <= k < r.value ==> Strip(labels[k]) != name
    ensures r.None? ==> forall k :: 0 <= k < |labels| ==> Strip(labels[k]) != name
  {
    Find(TrimLabels(labels), name)
  }
}

=== FILE: pipeline.dfy ===
/** The prediction endpoint's data path: the uploaded table is cleaned,
    aggregated per day and item, and extended with the model's features;
    the FEATURE_COLS columns of the result are the model's input. */
module Pipeline {
  import opened Wrappers
  import opened Calendar
  import opened Frames
  import opened Cleaning
  import opened Daily
  import opened Features

  /** Clean, aggregate, add features; a cleaning error ends the run. */
  function Run(p: Parsers, raw: RawTable): (r: Result<seq<FeatureRow>, CleanError>)
    requires Rectangular(raw)
    ensures r.Failure? <==> Clean(p, raw).Failure?
    ensures Cleanable(p, raw) ==> r.Success?
    ensures r.Failure? ==> r.error == Clean(p, raw).error
    ensures r.Success? ==> multiset(Rows(r.value)) == multiset(Aggregate(Clean(p, raw).value))
    ensures r.Success? ==> Sorted(Rows(r.value))
    ensures r.Success? ==> r.value == AddFeatures(Aggregate(Clean(p, raw).value))
  {
    match Clean(p, raw)
    case Failure(e) => Failure(e)
    case Success(rows) => Success(AddFeatures(Aggregate(rows)))
  }

  /** The model input: FEATURE_COLS of every feature row. */
  function FeatureMatrix(out: seq<FeatureRow>): (m: seq<seq<Value>>)
    ensures |m| == |out|
    ensures forall i :: 0 <= i < |out| ==>
      |m[i]| == |FeatureCols| && Some(m[i]) == Select(out[i], FeatureCols)
  {
    seq(|out|, i requires 0 <= i < |out| =>
      FeatureColsSelectable(out[i]);
      Select(out[i], FeatureCols).value)
  }

  // ---------------------------------------------------------------------
  // Totals and uniqueness survive reordering
  // ---------------------------------------------------------------------

  /** Removing row `i` takes exactly its amount and revenue off the totals. */
  lemma {:induction false} TotalsRemove(g: seq<DailyRow>, i: nat)
    requires i < |g|
    ensures TotalAmount(g) == TotalAmount(g[..i] + g[i + 1..]) + g[i].amount
    ensures TotalRevenue(g) == TotalRevenue(g[..i] + g[i + 1..]) + g[i].revenue
  {
    var h := g[..i] + g[i + 1..];
    if i == |g| - 1 {
      assert h == g[..|g| - 1];
    } else {
      var init := g[..|g| - 1];
      assert h[..|h| - 1] == init[..i] + init[i + 1..];
      assert h[|h| - 1] == g[|g| - 1];
      TotalsRemove(init, i);
    }
  }

  /** Taking position `i` out of `b` takes one `b[i]` out of its multiset. */
  lemma MultisetRemove<T>(b: seq<T>, i: nat)
    requires i < |b|
    ensures multiset(b[..i] + b[i + 1..]) + multiset{b[i]} == multiset(b)
  {
    assert b == b[..i] + [b[i]] + b[i + 1..];
  }

  /** The last element of `a` sits at some position of its permutation
      `b`; without it the two are still permutations of each other. */
  lemma PermutationStep<T>(a: seq<T>, b: seq<T>) returns (i: nat)
    requires a != [] && multiset(a) == multiset(b)
    ensures i < |b| && b[i] == a[|a| - 1]
    ensures multiset(a[..|a| - 1]) == multiset(b[..i] + b[i + 1..])
  {
    var x := a[|a| - 1];
    assert x in multiset(b) by { assert x in multiset(a); }
    i :| 0 <= i < |b| && b[i] == x;
    var a', b' := a[..|a| - 1], b[..i] + b[i + 1..];
    assert multiset(b') + multiset{x} == multiset(b) by {
      MultisetRemove(b, i);
    }
    assert multiset(a') + multiset{x} == multiset(a) by {
      assert a == a' + [x];
    }
    Cancel(multiset(a'), multiset(b'), x);
  }

  lemma Cancel<T>(m: multiset<T>, n: multiset<T>, x: T)
    requires m + multiset{x} == n + multiset{x}
    ensures m == n
  {
    forall y ensures m[y] == n[y] {
      assert (m + multiset{x})[y] == (n + multiset{x})[y];
    }
  }

  /** Reordering a daily table keeps its totals. */
  lemma {:induction false} TotalsPermutation(a: seq<DailyRow>, b: seq<DailyRow>)
    requires multiset(a) == multiset(b)
    ensures TotalAmount(a) == TotalAmount(b)
    ensures TotalRevenue(a) == TotalRevenue(b)
    decreases |a|
  {
    assert |a| == |multiset(a)| == |b|;
    if a != [] {
      var x := a[|a| - 1];
      var i := PermutationStep(a, b);
      TotalsPermutation(a[..|a| - 1], b[..i] + b[i + 1..]);
      TotalsRemove(b, i);
      assert TotalAmount(a) == TotalAmount(a[..|a| - 1]) + x.amount;
      assert TotalRevenue(a) == TotalRevenue(a[..|a| - 1]) + x.revenue;
    }
  }

  /** Two positions holding the same row make it occur twice. */
  lemma CountTwice(b: seq<DailyRow>, i: nat, j: nat)
    ensures i < j < |b| && b[i] == b[j] ==> multiset(b)[b[i]] >= 2
  {
    if i < j < |b| {
      assert b == b[..j] + [b[j]] + b[j + 1..];
      assert b[i] in multiset(b[..j]) by { assert b[..j][i] == b[i]; }
    }
  }

  /** A table with one row per date and item holds no row twice. */
  lemma {:induction false} UniqueOnce(a: seq<DailyRow>)
    ensures UniqueDateMenu(a) ==> forall x :: multiset(a)[x] <= 1
    decreases |a|
  {
    if a != [] && UniqueDateMenu(a) {
      var init, last := a[..|a| - 1], a[|a| - 1];
      assert a == init + [last];
      assert UniqueDateMenu(init) by {
        forall i, j | 0 <= i < j < |init|
          ensures init[i].date != init[j].date || init[i].menu != init[j].menu
        {
          assert init[i] == a[i] && init[j] == a[j];
        }
      }
      UniqueOnce(init);
      forall k | 0 <= k < |init| ensures init[k] != last {
        assert init[k] == a[k];
      }
    }
  }

  /** Reordering a table with one row per date and item keeps that so. */
  lemma UniquePermutation(a: seq<DailyRow>, b: seq<DailyRow>)
    requires multiset(a) == multiset(b) && UniqueDateMenu(a)
    ensures UniqueDateMenu(b)
  {
    UniqueOnce(a);
    forall i, j | 0 <= i < j < |b|
      ensures b[i].date != b[j].date || b[i].menu != b[j].menu
    {
      assert b[i] in multiset(a) && b[j] in multiset(a) by {
        assert b[i] in multiset(b) && b[j] in multiset(b);
      }
      var p :| 0 <= p < |a| && a[p] == b[i];
      var q :| 0 <= q < |a| && a[q] == b[j];
      CountTwice(b, i, j);
    }
  }

  // ---------------------------------------------------------------------
  // End-to-end properties
  // ---------------------------------------------------------------------

  /** Every transaction that survives the date filter is counted once:
      Amount_of_Sale over the feature table sums to the number of dated
      rows, and Total_Revenue to their money. */
  lemma RunConserves(p: Parsers, raw: RawTable)
    requires Rectangular(raw)
    ensures Run(p, raw).Success? ==>
      && SchemaOf(raw.labels).date.Some?
      && TotalAmount(Rows(Run(p, raw).value)) == |DatedRows(p, raw)|
      && TotalRevenue(Rows(Run(p, raw).value)) == TotalMoney(Clean(p, raw).value)
  {
    if Run(p, raw).Success? {
      var rows := Clean(p, raw).value;
      AggregateConserves(rows);
      TotalsPermutation(Aggregate(rows), Rows(Run(p, raw).value));
    }
  }

  /** Weeksort is the ISO weekday of the row's date (1 = Monday) and
      Monthsort its month. */
  predicate RanksOfDate(date: Day, weeksort: Cell, monthsort: Cell) {
    weeksort == Int(Weekday(date) + 1) && monthsort == Int(Month(date))
  }

  /** Every cleaned row carries the ranks derived from its date when the
      upload has neither Weekdaysort nor Monthsort. */
  lemma DerivedRanks(p: Parsers, raw: RawTable)
    requires Rectangular(raw)
    ensures Clean(p, raw).Success? && SchemaOf(raw.labels).weekday.None? && SchemaOf(raw.labels).month.None? ==>
      forall k :: 0 <= k < |Clean(p, raw).value| ==>
        RanksOfDate(Clean(p, raw).value[k].date, Clean(p, raw).value[k].weekday, Clean(p, raw).value[k].month)
  {
    var s := SchemaOf(raw.labels);
    if Clean(p, raw).Success? && s.weekday.None? && s.month.None? {
      var dated := DatedRows(p, raw);
      var rows := Clean(p, raw).value;
      forall k | 0 <= k < |rows|
        ensures RanksOfDate(rows[k].date, rows[k].weekday, rows[k].month)
      {
        assert Cleaned(p, s, dated[k], rows[k]);
      }
    }
  }

  /** Groups keep the ranks of the rows they come from. */
  lemma GroupRanks(rows: seq<CleanRow>)
    requires forall k :: 0 <= k < |rows| ==> RanksOfDate(rows[k].date, rows[k].weekday, rows[k].month)
    ensures RanksFollowDate(rows)
    ensures forall i :: 0 <= i < |Aggregate(rows)| ==>
      RanksOfDate(Aggregate(rows)[i].date, Aggregate(rows)[i].weeksort, Aggregate(rows)[i].monthsort)
  {
    var g := Aggregate(rows);
    AggregateCorrect(rows);
    forall i | 0 <= i < |g| ensures RanksOfDate(g[i].date, g[i].weeksort, g[i].monthsort) {
      var j :| 0 <= j < |rows| && KeyOf(rows[j]) == GroupKey(g[i]);
    }
  }

  /** The feature rows are the groups, so they keep the ranks too. */
  lemma FeatureRanks(g: seq<DailyRow>, out: seq<FeatureRow>)
    requires multiset(Rows(out)) == multiset(g)
    requires forall k :: 0 <= k < |g| ==> RanksOfDate(g[k].date, g[k].weeksort, g[k].monthsort)
    ensures forall i :: 0 <= i < |out| ==>
      RanksOfDate(out[i].row.date, out[i].row.weeksort, out[i].row.monthsort)
  {
    forall i | 0 <= i < |out|
      ensures RanksOfDate(out[i].row.date, out[i].row.weeksort, out[i].row.monthsort)
    {
      assert out[i].row in multiset(g) by {
        assert Rows(out)[i] in multiset(Rows(out));
      }
      var k :| 0 <= k < |g| && g[k] == out[i].row;
    }
  }

  /** With derived ranks the feature table has one row per date and item,
      and each row's Weeksort and Monthsort are its date's weekday and
      month. */
  lemma RunDerivedRanks(p: Parsers, raw: RawTable)
    requires Rectangular(raw)
    ensures Run(p, raw).Success? && SchemaOf(raw.labels).weekday.None? && SchemaOf(raw.labels).month.None? ==>
      && UniqueDateMenu(Rows(Run(p, raw).value))
      && forall i :: 0 <= i < |Run(p, raw).value| ==>
        RanksOfDate(Run(p, raw).value[i].row.date, Run(p, raw).value[i].row.weeksort, Run(p, raw).value[i].row.monthsort)
  {
    if Run(p, raw).Success? && SchemaOf(raw.labels).weekday.None? && SchemaOf(raw.labels).month.None? {
      var rows := Clean(p, raw).value;
      var g := Aggregate(rows);
      DerivedRanks(p, raw);
      GroupRanks(rows);
      AggregateUniqueDateMenu(rows);
      UniquePermutation(g, Rows(Run(p, raw).value));
      FeatureRanks(g, Run(p, raw).value);
    }
  }

  /** Ranks 6 and 7 are Saturday and Sunday. */
  lemma WeekendDays(weeksort: Cell, w: int)
    requires weeksort == Int(w + 1)
    ensures WeekendRank(weeksort) <==> w == 5 || w == 6
  {
  }

  /** With derived ranks is_weekend is 1 exactly on Saturdays and Sundays. */
  lemma RunWeekend(p: Parsers, raw: RawTable, i: nat)
    requires Rectangular(raw)
    ensures (Run(p, raw).Success? && i < |Run(p, raw).value|
      && SchemaOf(raw.labels).weekday.None? && SchemaOf(raw.labels).month.None?) ==>
      var f := Run(p, raw).value[i];
      f.isWeekend == 1 <==> Weekday(f.row.date) == 5 || Weekday(f.row.date) == 6
  {
    if Run(p, raw).Success? && i < |Run(p, raw).value|
      && SchemaOf(raw.labels).weekday.None? && SchemaOf(raw.labels).month.None?
    {
      var rows := Clean(p, raw).value;
      var g := Aggregate(rows);
      DerivedRanks(p, raw);
      GroupRanks(rows);
      WeekendFlag(g, i);
      WeekendOfRanks(g, AddFeatures(g), i);
    }
  }

  lemma WeekendOfRanks(g: seq<DailyRow>, out: seq<FeatureRow>, i: nat)
    requires i < |out| && multiset(Rows(out)) == multiset(g)
    requires forall k :: 0 <= k < |g| ==> RanksOfDate(g[k].date, g[k].weeksort, g[k].monthsort)
    requires out[i].isWeekend == 1 <==> WeekendRank(out[i].row.weeksort)
    ensures out[i].isWeekend == 1 <==> Weekday(out[i].row.date) == 5 || Weekday(out[i].row.date) == 6
  {
    var x := out[i].row;
    assert x in multiset(g) by {
      assert Rows(out)[i] in multiset(Rows(out));
    }
    var k :| 0 <= k < |g| && g[k] == x;
    assert RanksOfDate(x.date, x.weeksort, x.monthsort);
    WeekendDays(x.weeksort, Weekday(x.date));
  }
}

=== FILE: strings.dfy ===
/** Text operations the pipeline applies to labels and cells: Python's
    `str.strip()`, `str.replace(",", "")`, `str()` of an integer, and the
    code-point ordering Python uses to compare strings. */
module Strings {

  /** The characters Python's `str.isspace()` accepts, i.e. the ones
      `str.strip()` removes from both ends. */
  predicate IsSpace(c: char) {
    var n := c as int;
    || 9 <= n <= 13
    || 28 <= n <= 32
    || n == 0x85 || n == 0xA0 || n == 0x1680
    || 0x2000 <= n <= 0x200A
    || n == 0x2028 || n == 0x2029 || n == 0x202F || n == 0x205F || n == 0x3000
  }

  /** Every character of `s` from position `lo` up to `hi` is whitespace. */
  predicate SpaceBetween(s: string, lo: nat, hi: nat)
    requires lo <= hi <= |s|
  {
    forall k :: lo <= k < hi ==> IsSpace(s[k])
  }

  /** The end of the whitespace run that starts at `i`. */
  function LeadEnd(s: string, i: nat): (r: nat)
    requires i <= |s|
    ensures i <= r <= |s| && SpaceBetween(s, i, r)
    ensures r == |s| || !IsSpace(s[r])
    decreases |s| - i
  {
    if i < |s| && IsSpace(s[i]) then LeadEnd(s, i + 1) else i
  }

  /** The start of the whitespace run that ends at `j`, not going below `lo`. */
  function TrailStart(s: string, lo: nat, j: nat): (r: nat)
    requires lo <= j <= |s|
    ensures lo <= r <= j && SpaceBetween(s, r, j)
    ensures r == lo || !IsSpace(s[r - 1])
    decreases j
  {
    if j > lo && IsSpace(s[j - 1]) then TrailStart(s, lo, j - 1) else j
  }

  /** Python's `str.strip()`: the result is the middle part of `s` left
      after removing whitespace from both ends. */
  function Strip(s: string): (r: string)
    ensures exists i, j :: 0 <= i <= j <= |s| && r == s[i..j] && SpaceBetween(s, 0, i) && SpaceBetween(s, j, |s|)
    ensures r == [] || (!IsSpace(r[0]) && !IsSpace(r[|r| - 1]))
  {
    var i := LeadEnd(s, 0);
    var j := TrailStart(s, i, |s|);
    assert i < j ==> s[i..j][0] == s[i] && s[i..j][j - i - 1] == s[j - 1];
    s[i..j]
  }

  /** The stripped text is determined by the split: whichever way `s` is cut
      into whitespace, a core whose ends are not whitespace, and whitespace,
      `Strip` returns that core. */
  lemma StripUnique(s: string, i: nat, j: nat)
    requires i <= j <= |s|
    requires SpaceBetween(s, 0, i) && SpaceBetween(s, j, |s|)
    requires i == j || (!IsSpace(s[i]) && !IsSpace(s[j - 1]))
    ensures Strip(s) == s[i..j]
  {
    var a := LeadEnd(s, 0);
    if i == j {
      assert SpaceBetween(s, 0, |s|);
      assert a == |s|;
    } else {
      assert a == i;
      assert TrailStart(s, a, |s|) == j;
    }
  }

  /** `r` is what is left of `s` once a whitespace run is cut from each end,
      and `r` neither starts nor ends with whitespace. */
  ghost predicate IsStripOf(r: string, s: string) {
    && (exists i, j :: 0 <= i <= j <= |s| && r == s[i..j] && SpaceBetween(s, 0, i) && SpaceBetween(s, j, |s|))
    && (r == [] || (!IsSpace(r[0]) && !IsSpace(r[|r| - 1])))
  }

  /** A text without whitespace at either end is its own strip. */
  lemma StripTrimmed(s: string)
    ensures s == [] || (!IsSpace(s[0]) && !IsSpace(s[|s| - 1])) ==> Strip(s) == s
  {
    if s == [] || (!IsSpace(s[0]) && !IsSpace(s[|s| - 1])) {
      assert s[0..|s|] == s;
      StripUnique(s, 0, |s|);
    }
  }

  /** Stripping twice is stripping once. */
  lemma StripIdempotent(s: string)
    ensures Strip(Strip(s)) == Strip(s)
  {
    var r := Strip(s);
    assert r[0..|r|] == r;
    StripUnique(r, 0, |r|);
  }

  /** Python's `str.replace(",", "")`: every comma is deleted and every
      other character is kept, in order. */
  function RemoveCommas(s: string): (r: string)
    ensures ',' !in r
    ensures multiset(r) == multiset(s)[',' := 0]
    ensures ',' !in s ==> r == s
  {
    if s == [] then []
    else
      var rest := RemoveCommas(s[1..]);
      assert s == [s[0]] + s[1..];
      if s[0] == ',' then rest else [s[0]] + rest
  }

  /** The first step of comma removal. */
  lemma RemoveCommasCons(s: string)
    requires s != []
    ensures RemoveCommas(s) == (if s[0] == ',' then [] else [s[0]]) + RemoveCommas(s[1..])
  {
  }

  lemma ThousandsDigits()
    ensures ['1'] + "000" == "1000"
  {
  }

  lemma RemoveCommasSeparator()
    ensures RemoveCommas(",000") == "000"
  {
    RemoveCommasCons(",000");
    assert ",000"[1..] == "000";
    assert ',' !in "000";
  }

  lemma RemoveCommasLeading()
    ensures RemoveCommas("1,000") == ['1'] + "000"
  {
    RemoveCommasCons("1,000");
    assert "1,000"[1..] == ",000";
    RemoveCommasSeparator();
  }

  /** "1,000" loses its thousands separator. */
  lemma RemoveCommasThousands()
    ensures RemoveCommas("1,000") == "1000"
  {
    RemoveCommasLeading();
    ThousandsDigits();
  }

  /** Deleting commas works piecewise, so the order of the kept characters
      is the order in `s`. */
  lemma {:induction false} RemoveCommasAppend(a: string, b: string)
    ensures RemoveCommas(a + b) == RemoveCommas(a) + RemoveCommas(b)
  {
    if a == [] {
      assert a + b == b;
    } else {
      assert (a + b)[1..] == a[1..] + b;
      RemoveCommasAppend(a[1..], b);
    }
  }

  function DigitChar(d: int): (c: char)
    requires 0 <= d < 10
    ensures '0' <= c <= '9'
  {
    ('0' as int + d) as char
  }

  predicate IsDigits(s: string) {
    forall k :: 0 <= k < |s| ==> '0' <= s[k] <= '9'
  }

  /** Decimal digits of a natural number, most significant first, without
      leading zeros. */
  function ShowNat(n: nat): (r: string)
    ensures |r| >= 1 && IsDigits(r)
    ensures |r| > 1 ==> r[0] != '0'
  {
    if n < 10 then [DigitChar(n)]
    else
      var r := ShowNat(n / 10) + [DigitChar(n % 10)];
      assert r[0] == ShowNat(n / 10)[0];
      r
  }

  /** The value of a string of decimal digits. */
  function ReadNat(s: string): nat
    requires IsDigits(s)
  {
    if s == [] then 0
    else ReadNat(s[..|s| - 1]) * 10 + (s[|s| - 1] as int - '0' as int)
  }

  /** Reading the digits back recovers the number. */
  lemma {:induction false} ReadShowNat(n: nat)
    ensures ReadNat(ShowNat(n)) == n
  {
    if n >= 10 {
      var r := ShowNat(n);
      assert r[..|r| - 1] == ShowNat(n / 10);
      ReadShowNat(n / 10);
    }
  }

  /** Python's `str()` of an integer. */
  function Show(i: int): (r: string)
    ensures |r| >= 1
    ensures i >= 0 ==> IsDigits(r) && ReadNat(r) == i
    ensures i < 0 ==> r[0] == '-' && IsDigits(r[1..]) && ReadNat(r[1..]) == -i
    ensures i >= 0 && |r| > 1 ==> r[0] != '0'
    ensures i < 0 ==> |r| >= 2 && r[1] != '0'
  {
    if i < 0 then
      ReadShowNat(-i);
      assert ("-" + ShowNat(-i))[1..] == ShowNat(-i);
      "-" + ShowNat(-i)
    else
      ReadShowNat(i);
      ShowNat(i)
  }

  /** Python's `a <= b` on strings: lexicographic by code point, a proper
      prefix ordering before the longer string. */
  predicate StrLe(a: string, b: string) {
    if a == [] then true
    else if b == [] then false
    else if a[0] != b[0] then a[0] < b[0]
    else StrLe(a[1..], b[1..])
  }

  lemma {:induction false} StrLeTotal(a: string, b: string)
    ensures StrLe(a, b) || StrLe(b, a)
  {
    if a != [] && b != [] && a[0] == b[0] {
      StrLeTotal(a[1..], b[1..]);
    }
  }

  lemma {:induction false} StrLeAntisymmetric(a: string, b: string)
    ensures StrLe(a, b) && StrLe(b, a) ==> a == b
  {
    if a != [] && b != [] {
      StrLeAntisymmetric(a[1..], b[1..]);
      assert a == [a[0]] + a[1..] && b == [b[0]] + b[1..];
    }
  }

  lemma {:induction false} StrLeTransitive(a: string, b: string, c: string)
    ensures StrLe(a, b) && StrLe(b, c) ==> StrLe(a, c)
  {
    if a != [] && b != [] && c != [] && a[0] == b[0] && b[0] == c[0] {
      StrLeTransitive(a[1..], b[1..], c[1..]);
    }
  }
}

=== FILE: wrappers.dfy ===
/** Failure-carrying result types used across the pipeline model. */
module Wrappers {

  /** A value that may be absent: the outcome of a partial parser. */
  datatype Option<+T> = None | Some(value: T)

  /** Either a computed value or the error the pipeline raises instead. */
  datatype Result<+R, +E> = Success(value: R) | Failure(error: E)
}
